=== FILE: README.md ===
# Funda broker ranking — a Dafny model

This project models the core of a small tool that ranks Amsterdam real-estate brokers
("makelaars") by the number of listings they have on the Funda listings feed. The model has
four parts.

- **Records** (`records.dfy`). These are the three records the feed's JSON decodes into:
  - `RealEstateData` is one page;
  - `PagingInfo` is its paging block;
  - `RealEstateAgent` is one listing's broker, with its offer type and a count.
- **Ranking** (`grouping.dfy`, `ordering.dfy`, `transformer.dfy`). `Transform` and
  `TransformByOfferType` work in four steps:
  1. group the listings by broker id;
  2. summarise each group as one entry, with the name and offer type of the group's first
     listing and the group's size as its count;
  3. order the entries by count, largest first;
  4. keep the first ten.

  `TransformByOfferType` first keeps only the listings of one offer type. LINQ's
  `GroupBy` is modelled as grouping in first-appearance order. `OrderByDescending` is modelled
  as a stable insertion sort.
- **Extraction** (`query.dfy`, `extraction.dfy`).
  - The page walk of `GetPurchaseOffersAsync` and `GetRentOffersAsync` works like this:
    1. request page 1's query, then move the query on after each response: by the line-94
       rewrite after a success, by the line-77 rewrite after a failure. This is the next
       page's query only while no request has failed (see Findings);
    2. collect nothing from a request that fails;
    3. throw on a null body;
    4. collect each decoded page's entries;
    5. continue while the paging block announces a next page;
    6. finally, stamp every entry with the fetch's offer type.
  - `GetBrokerData` chooses the fetches from an objective string.
  - The query string is rewritten with an ordinal `String.Replace`, which is modelled
    exactly (`ReplaceAll`).
  - The feed is not called. A fetch takes the sequence of responses the feed returns: a status
    code and the decoded body, or `None` for a null body. The fetch ends in one of three ways:
    - `Done` with the stamped entries;
    - `Failed` with the exception the client throws;
    - `Unfinished` when the given responses run out before the walk ends.
- **Test scenarios** (`transformer_examples.dfy`). The three unit-test scenarios of the
  transformer are stated and proved as lemmas.

Facts about the client's page walk that the model keeps:
- there is no retry. A failed page is skipped and never requested again; the TODOs at
  ExtractionClient.cs lines 71 and 138 mark where retries would go;
- pages are numbered from 1 (lines 59 and 127);
- a null body on a successful response throws `InvalidOperationException` (lines 83-87 and
  149-153);
- after a failed request, the query is rewritten by replacing the bare `&page=` (lines 77 and
  143). The walk models that rewrite as written (see Findings).

## Model

| member | source | states |
|---|---|---|
| Records.SetOfferType | FundaAssignment/Extraction/RealEstateData.cs:11-18 | Setting a broker entry's `OfferType` changes only the offer type. Id, name and count are kept, and setting the type it already has gives back the same record. |
| Grouping.GroupBy | FundaAssignment/Transformation/RealEstateAgentDataTransformer.cs:18 | The result is a grouping of the listings. Each group holds exactly the listings with its key, in input order. Keys are distinct and every broker id has a group. Groups are ordered by the key's first appearance. |
| Grouping.PlaceExtendsGrouping | FundaAssignment/Transformation/RealEstateAgentDataTransformer.cs:18 | Adding the next listing to a grouping of a prefix gives a grouping of the longer prefix. This is the induction step behind `GroupBy`. |
| Grouping.FirstOfGroupIsFirstInInput | FundaAssignment/Transformation/RealEstateAgentDataTransformer.cs:21-23 | The first element of a group (`g.First()`) is the first listing of that broker in the input. |
| Grouping.GroupSizesSumToLength | FundaAssignment/Transformation/RealEstateAgentDataTransformer.cs:18-24 | The group sizes add up to the number of listings, so the groups partition the input. |
| Grouping.Summaries | FundaAssignment/Transformation/RealEstateAgentDataTransformer.cs:19-25 | The `Select` over the groups: one entry per group, with the group's key, the name and offer type of its first element, and its size as the count. What the entries mean in terms of the input is stated by `Grouping.SummariesSpec`. |
| Grouping.SummariesSpec | FundaAssignment/Transformation/RealEstateAgentDataTransformer.cs:18-25 | There is one entry per broker, with distinct ids, in first-appearance order. Each entry's count is that broker's number of listings (at least 1). Its name and offer type come from the broker's first listing. The counts add up to the number of listings. |
| Grouping.SummariesCoverIds | FundaAssignment/Transformation/RealEstateAgentDataTransformer.cs:18-25 | A broker id has a summary exactly when some listing carries it. |
| Grouping.SummariesIgnoreCounts | FundaAssignment/Transformation/RealEstateAgentDataTransformer.cs:19-25 | The `Count` the listings come in with does not affect the summaries. |
| Grouping.SummariesOfDistinctIds | FundaAssignment/Transformation/RealEstateAgentDataTransformer.cs:18-25 | When every listing has a different broker, the summaries are the listings themselves, in order, each with count 1. |
| Ordering.OrderByCountDescending | FundaAssignment/Transformation/RealEstateAgentDataTransformer.cs:26 | The result is a permutation of the entries (same multiset), with counts that never increase. |
| Ordering.SortKeepsTiesRanked | FundaAssignment/Transformation/RealEstateAgentDataTransformer.cs:26 | The sort is stable: entries with equal counts keep their relative order. |
| Ordering.SortOfOrderedIsIdentity | FundaAssignment/Transformation/RealEstateAgentDataTransformer.cs:26 | Entries already ordered by count come back unchanged. |
| Transformer.Take | FundaAssignment/Transformation/RealEstateAgentDataTransformer.cs:27 | The result is the first `min(n, length)` entries, unchanged. |
| Transformer.Transform | FundaAssignment/Transformation/RealEstateAgentDataTransformer.cs:13-29 | The ranking has at most ten entries. |
| Transformer.TransformEntries | FundaAssignment/Transformation/RealEstateAgentDataTransformer.cs:18-27 | Ranked broker ids are distinct, and each appears in the input. An entry's count is the broker's number of listings. Its name and offer type are those of the broker's first listing. |
| Transformer.TransformOrder | FundaAssignment/Transformation/RealEstateAgentDataTransformer.cs:26 | Counts never increase along the ranking. Entries with equal counts are in the order their brokers first appear in the input. |
| Transformer.SortKeepsDistinctIds | FundaAssignment/Transformation/RealEstateAgentDataTransformer.cs:26 | Ordering entries with distinct ids keeps the ids distinct. |
| Transformer.RankedCoversIds | FundaAssignment/Transformation/RealEstateAgentDataTransformer.cs:18-26 | Before `Take`, the ranking has one entry per distinct broker id, and every broker in the input is in it. |
| Transformer.TransformTopTen | FundaAssignment/Transformation/RealEstateAgentDataTransformer.cs:26-27 | The ranking has `min(10, number of brokers)` entries. With at most ten brokers, every broker is ranked. A broker left out has no more listings than the tenth entry's count. |
| Transformer.RankedCountsSumToLength | FundaAssignment/Transformation/RealEstateAgentDataTransformer.cs:18-26 | Before `Take`, the counts of the ranking add up to the number of listings. |
| Transformer.TransformLeader | FundaAssignment/Transformation/RealEstateAgentDataTransformer.cs:26-27 | For a non-empty input, the first entry's count is at least every broker's number of listings. |
| Transformer.TransformStrictLeader | FundaAssignment/Transformation/RealEstateAgentDataTransformer.cs:18-27 | A broker with strictly more listings than every other broker is ranked first. |
| Transformer.TransformIgnoresCounts | FundaAssignment/Transformation/RealEstateAgentDataTransformer.cs:19-25 | Two inputs that differ only in the listings' `Count` fields rank the same. |
| Transformer.TransformOfDistinctIds | FundaAssignment/Transformation/RealEstateAgentDataTransformer.cs:13-29 | When every listing has a different broker, the ranking is the first ten listings in input order, each with count 1. |
| Transformer.OfType | FundaAssignment/Transformation/RealEstateAgentDataTransformer.cs:36 | The `Where` on the offer type: the listings of type `k`, in input order, never more than the input. What it keeps is stated by `Transformer.OfTypeMembers` and `Transformer.OfTypeOfConcat`. |
| Transformer.OfTypeMembers | FundaAssignment/Transformation/RealEstateAgentDataTransformer.cs:36 | The filter keeps exactly the listings of the requested offer type: everything kept has that type and comes from the input, and every input listing of that type is kept. |
| Transformer.OfTypeOfConcat | FundaAssignment/Transformation/RealEstateAgentDataTransformer.cs:36 | Filtering distributes over concatenation, so the filter keeps input order. |
| Transformer.OfTypeKeepsDistinctIds | FundaAssignment/Transformation/RealEstateAgentDataTransformer.cs:36 | Filtering listings with distinct broker ids keeps them distinct. |
| Transformer.TransformByOfferType | FundaAssignment/Transformation/RealEstateAgentDataTransformer.cs:31-48 | The ranking per offer type has at most ten entries, and every entry has the requested offer type. |
| Transformer.WithIdOfType | FundaAssignment/Transformation/RealEstateAgentDataTransformer.cs:36-37 | Taking one broker's listings and filtering by offer type give the same sequence in either order. |
| Transformer.TransformByOfferTypeCounts | FundaAssignment/Transformation/RealEstateAgentDataTransformer.cs:36-46 | In the ranking for offer type `k`, an entry's count is the number of that broker's listings of type `k`, which is at least 1. |
| Transformer.TransformByOfferTypeOfUniform | FundaAssignment/Transformation/RealEstateAgentDataTransformer.cs:31-48 | When every listing has offer type `k`, ranking by `k` equals the plain ranking. |
| Transformer.TransformByOfferTypeAbsent | FundaAssignment/Transformation/RealEstateAgentDataTransformer.cs:31-48 | An offer type that no listing has gives an empty ranking. |
| TransformerExamples.ShouldReturnTopRealEstateAgents | FundaAssignmentTest/RealEstateAgentDataTransformerTest.cs:8-34 | Ten purchase listings over brokers 0, 1, 2 give three entries. Broker 0 is first. All entries are purchases, and ranking by purchase gives the same list. |
| TransformerExamples.ShouldReturnTopRealEstateAgentsByOfferType | FundaAssignmentTest/RealEstateAgentDataTransformerTest.cs:36-62 | Ten single-listing brokers alternate between purchase and rent. Each offer type gives five entries: broker 0 leads the purchase ranking and broker 1 leads the rent ranking. |
| TransformerExamples.ShouldOnlyReturn10Items | FundaAssignmentTest/RealEstateAgentDataTransformerTest.cs:64-86 | Twenty single-listing brokers give ten entries, both in the plain ranking and in the purchase ranking. |
| QueryString.DigitsRoundTrip | FundaAssignment/Extraction/ExtractionClient.cs:61 | The decimal text of a page number reads back as that number. |
| QueryString.DigitsInjective | FundaAssignment/Extraction/ExtractionClient.cs:61 | Different page numbers have different decimal texts. |
| QueryString.ReplaceAll | FundaAssignment/Extraction/ExtractionClient.cs:77 | Ordinal `String.Replace`: scans left to right, replaces each non-overlapping occurrence of the pattern and resumes behind it. Its behaviour is stated by `ReplaceAllNoMatch`, `ReplaceAllAtMatch`, `ReplaceAllSkip` and `ReplaceAllFreePrefix`. |
| QueryString.ReplaceAllNoMatch | FundaAssignment/Extraction/ExtractionClient.cs:94 | `String.Replace` leaves a string without the pattern unchanged. |
| QueryString.RewritePageText | FundaAssignment/Extraction/ExtractionClient.cs:94 | In a query whose page text is `u` followed by `v`, replacing `&page=u` by `&page=w` makes the page text `w` followed by `v`. The `type`, `zo` and `pagesize` parameters are untouched. |
| QueryString.SearchPath | FundaAssignment/Extraction/ExtractionClient.cs:60 | An empty search term adds nothing to the path. Any other term is followed by one `/`. |
| QueryString.AdvanceQuery | FundaAssignment/Extraction/ExtractionClient.cs:94 | The success path's rewrite: `&page=<n>` is replaced by `&page=<n+1>`. Its effect is stated by `AdvanceQueryStep` and `AdvanceAfterFailureAsWritten`. |
| QueryString.AdvanceQueryStep | FundaAssignment/Extraction/ExtractionClient.cs:94 | On the success path, advancing the query for page `n` gives the query for page `n + 1`. |
| QueryString.FailureQueryAsWritten | FundaAssignment/Extraction/ExtractionClient.cs:76-77 | The failure path's rewrite as written: with `page` already incremented, the bare `&page=` is replaced by `&page=<page>`. Its effect is stated by `FailureQueryAsWrittenStep`. |
| QueryString.AdvanceAfterFailureAsWritten | FundaAssignment/Extraction/ExtractionClient.cs:94 | After the failure path has left the page text as the digits of `n + 1` then `n`, a success replaces only the leading number, giving the digits of `n + 2` then `n`. |
| QueryString.FailureQueryAsWrittenStep | FundaAssignment/Extraction/ExtractionClient.cs:76-77 | As written, the failure path's rewrite makes the page text the digits of `n + 1` followed by those of `n`. That is never the query for page `n + 1`. |
| QueryString.FailureQueryAsWrittenExample | FundaAssignment/Extraction/ExtractionClient.cs:76-77 | After the first purchase page fails, the next request asks for `&page=21`. |
| QueryString.InitialPurchaseQuery | FundaAssignment/Extraction/ExtractionClient.cs:59-61 | The first purchase query is `?type=koop&zo=/amsterdam/&page=1&pagesize=25`. |
| QueryString.InitialRentQuery | FundaAssignment/Extraction/ExtractionClient.cs:127-128 | The first rent query is `?type=huur&zo=/amsterdam/&page=1&pagesize=25`. |
| QueryString.InitialGardenQuery | FundaAssignment/Extraction/ExtractionClient.cs:36-40 | The garden fetch passes `tuin/`, which gets a second slash: its first query is `?type=koop&zo=/amsterdam/tuin//&page=1&pagesize=25`. |
| Extraction.HasNextPage | FundaAssignment/Extraction/ExtractionClient.cs:90-91 | The two-part condition for going on: the current page is at most the page count, and the next-page URL is neither null nor empty. |
| Extraction.FetchResult | FundaAssignment/Extraction/ExtractionClient.cs:51-117 | The whole walk as one function of the responses. The walk ends at `FirstStop`. A null body there gives the error; otherwise the result is the entries of every response up to it, stamped. Without a stop the walk is `Unfinished`. `FetchOffers` is proved equal to it. |
| Extraction.FirstStop | FundaAssignment/Extraction/ExtractionClient.cs:64-101 | The walk ends at the first successful response whose body is null or announces no next page. No earlier response ends it. |
| Extraction.Stamp | FundaAssignment/Extraction/ExtractionClient.cs:110-113 | Every collected entry gets the fetch's offer type. Ids, names, counts, order and number are kept. |
| Extraction.NextQuery | FundaAssignment/Extraction/ExtractionClient.cs:72-96 | The query sent after one response. After a success it is the success-path rewrite of line 94. After a failure it is the rewrite of line 77 for `AsWritten`, or the success-path rewrite for `Corrected`. |
| Extraction.IsRequestTrace | FundaAssignment/Extraction/ExtractionClient.cs:59-96 | The queries a walk sends: page 1's query first, then each one moved on from the one before by `NextQuery`. |
| Extraction.FetchOffers | FundaAssignment/Extraction/ExtractionClient.cs:51-117 | The loop computes exactly `FetchResult`: the stamped entries of every decoded page up to the one that ends the walk, or the null-body error. It makes one request per response up to that point, and its requests form an `IsRequestTrace` for the rewrite it is given. With well-formed fixed parameters, request `j` is the query for page `j + 1` while no earlier request failed, and always with `Corrected`. The client runs it with `AsWritten`. |
| Extraction.TraceFollowsPages | FundaAssignment/Extraction/ExtractionClient.cs:59-96 | In any request trace, request `j` is the query for page `j + 1` as long as every earlier request succeeded. With the corrected rewrite this holds for every request. |
| Extraction.TraceAfterFirstFailure | FundaAssignment/Extraction/ExtractionClient.cs:72-96 | With the client's own rewrite, a failed first request makes the second request ask for `&page=21`. A success there makes the third ask for `&page=31`. |
| Extraction.AllFailuresNeverEnd | FundaAssignment/Extraction/ExtractionClient.cs:72-78 | When every request fails, nothing is collected and the walk never ends by itself. |
| Extraction.FailuresAreSkipped | FundaAssignment/Extraction/ExtractionClient.cs:72-78 | A failed request in front of the others changes nothing except the number of requests. |
| Extraction.FetchedEntries | FundaAssignment/Extraction/ExtractionClient.cs:88-113 | A finished fetch returns exactly the decoded pages' entries in page order, each with the fetch's offer type. |
| Extraction.SinglePage | FundaAssignment/Extraction/ExtractionClient.cs:81-101 | One decoded page that announces no next page is the whole fetch, after one request. |
| Extraction.NullBodyFails | FundaAssignment/Extraction/ExtractionClient.cs:83-87 | A successful response with a null body ends the fetch with `InvalidOperationException` and its message. Entries collected before it are lost. |
| Extraction.ToLower | FundaAssignment/Extraction/ExtractionClient.cs:27 | Lower-casing keeps the length and maps every capital letter `A`-`Z` to its lower-case letter. Every other character is kept, so no capital is left. |
| Extraction.ParseObjective | FundaAssignment/Extraction/ExtractionClient.cs:27-46 | The objective test. It gives `AllAmsterdam` exactly when the lower-cased objective is `allamsterdam`, and `Garden` exactly when that test fails and the objective is `garden`. Any other objective gives the argument error that names it. Which spellings pass is stated by `AcceptedObjectives`. |
| Extraction.AcceptedObjectives | FundaAssignment/Extraction/ExtractionClient.cs:27-46 | Accepted as `allamsterdam`: exactly the strings that spell it with each letter in either case, checked letter by letter against `allamsterdam` and `ALLAMSTERDAM`. Accepted as `garden`: exactly the string `garden`. |
| Extraction.ObjectiveSpelling | FundaAssignment/Extraction/ExtractionClient.cs:27-46 | `AllAmsterdam` is accepted and `Garden` is rejected. |
| Extraction.GetBrokerData | FundaAssignment/Extraction/ExtractionClient.cs:23-49 | The objective defaults to `allamsterdam`. `allamsterdam` gives the purchase fetch's entries followed by the rent fetch's. `garden` gives the purchase fetch with search term `tuin/`. Any other objective gives the argument error. |
| Extraction.ClientSessionsWellFormed | FundaAssignment/Extraction/ExtractionClient.cs:36-40 | The three queries the client builds each have exactly four parameters. |
| Extraction.BrokerDataStamped | FundaAssignment/Extraction/ExtractionClient.cs:27-35 | Joining the purchase and rent fetches gives the purchase entries, all stamped Purchase, followed by the rent entries, all stamped Rent. By `GetBrokerData`'s first ensures this is its result for `allamsterdam`. |

## Left out

- HTTP, JSON decoding and `async` are left out. A fetch is given the feed's responses instead.
- The base URL (ExtractionClient.cs line 10) and the API key read from the environment (lines
  12-21) are left out. They only prefix the request path, as the client's base address at
  lines 56 and 124.
- Console logging (including the `page % 10` progress line) is left out; it has no effect on
  the result.
- `Thread.Sleep(500)` is left out; it has no effect on the result. In the client it runs only
  after a successful page that announces a next page (lines 96 and 162), never after a failed
  request.
- The `catch` block that logs and rethrows (ExtractionClient.cs lines 103-107) is left out.
  Network and decoding exceptions come from the feed and are not modelled.
- A walk that never ends is modelled as `Unfinished` once the given responses run out. The
  client itself would go on requesting pages.
- `ArgumentNullException.ThrowIfNull` in both transformer methods is left out, because a Dafny
  sequence is never null.
- A decoded page whose `Objects` or `Paging` is null is left out. In the client a null
  `Objects` makes `AddRange` at line 88 throw `ArgumentNullException`, and a null `Paging`
  makes line 90 throw `NullReferenceException`; either way the `catch` at lines 103-107
  rethrows and the fetch aborts. Such fields are always present in the model; only a null
  body is modelled.
- Extraction.ToLower: only ASCII letters are lower-cased. .NET's culture-sensitive lower-casing
  of other letters is not modelled.
- Records.int32: ids and page numbers have the range of a .NET `int`. Counts and the page
  counter are unbounded, so overflow past 2^31 - 1 listings or pages is not modelled.
- Transformer.Transform: its own contract only bounds the length. Contents, order and the top-ten
  cut are stated in `Transformer.TransformEntries`, `Transformer.TransformOrder` and
  `Transformer.TransformTopTen`.
- Transformer.TransformByOfferType: its own contract states the bound and the offer type.
  Counts are stated in `Transformer.TransformByOfferTypeCounts`.
- Transformer.OfType: its own contract only bounds the length. What it keeps is stated in
  `Transformer.OfTypeMembers` and `Transformer.OfTypeOfConcat`.
- The declaration of the `OfferType` enum is not part of this model. It is modelled as its
  two values, `Purchase` and `Rent`.
- ClientFactory.cs, OutputCreator.cs and Program.cs are not part of this model. ClientFactory.cs
  is unused: its uses are commented out at ExtractionClient.cs lines 8 and 14. Program.cs
  constructs the client, reads `OUTPUT_DIR` from the environment and calls the modelled
  functions. OutputCreator.cs writes the reports.
- `GetRentOffersAsync` (ExtractionClient.cs lines 119-183) is the purchase walk with `type=huur`,
  no search term and a Rent stamp. It is the same `FetchOffers` run with `RentSession()`.

## Findings

| source | as written | input that shows it | evidently intended | confidence | as-written member | corrected member |
|---|---|---|---|---|---|---|
| FundaAssignment/Extraction/ExtractionClient.cs:76-77 (also 142-143) | After a failed request, `page++` and then `Replace("&page=", $"&page={page}")`. The bare `&page=` is replaced, so the new number is put in front of the old one. | The first purchase page `?type=koop&zo=/amsterdam/&page=1&pagesize=25` fails. | The next request is `?type=koop&zo=/amsterdam/&page=2&pagesize=25`, as on the success path (line 94). What is written asks for `&page=21`; a success there then asks for `&page=31`. The walk (`FetchOffers` with `AsWritten`, as `GetBrokerData` runs it) sends these queries. With `Corrected`, every request is the next page's query. | high; not executed | Extraction.TraceAfterFirstFailure | Extraction.TraceFollowsPages |

=== FILE: extraction.dfy ===
/**
 The extraction client: it walks the pages of the listings feed for one fetch (purchase or
 rent), collects the broker entries of every page, stamps them with the fetch's offer type, and
 `GetBrokerData` picks the fetches to run from an objective string.

 The feed is not called here. A fetch is given the responses the feed returns, in the order the
 requests are made; a response is its status code and its decoded body (`None` for a body that
 decodes to null). When the given responses run out before the walk ends, the fetch is
 `Unfinished`: the client itself would simply go on requesting pages.
 */
module Extraction {
  import opened Records
  import opened QueryString

  /** One answer of the feed, as the page walk sees it. */
  datatype Response = Response(statusCode: int, content: Option<RealEstateData>)

  /** `HttpResponseMessage.IsSuccessStatusCode`: a status in the 2xx range. */
  predicate IsSuccessStatusCode(code: int) {
    200 <= code <= 299
  }

  /** The exceptions the client raises itself. */
  datatype ClientError =
    | InvalidOperation(message: string)
    | Argument(message: string)

  const NullContentMessage: string := "Response content is null. No data received from the API."

  function UnsupportedObjectiveMessage(objective: string): string {
    "Objective '" + objective + "' is not supported. Please use 'allamsterdam' or 'garden'."
  }

  /** What a fetch, or `GetBrokerData`, ends with. */
  datatype FetchOutcome =
    | Done(records: seq<RealEstateAgent>)
    | Failed(error: ClientError)
    | Unfinished

  /** The paging block announces another page. */
  predicate HasNextPage(p: PagingInfo) {
    p.huidigePagina <= p.aantalPaginas && !IsNullOrEmpty(p.volgendeUrl)
  }

  /** The response ends the walk: a success whose body is null or announces no next page. */
  predicate Stops(r: Response) {
    IsSuccessStatusCode(r.statusCode) && (r.content.None? || !HasNextPage(r.content.value.paging))
  }

  /** The broker entries a response contributes: those of a decoded successful page. */
  function Objects(r: Response): seq<RealEstateAgent> {
    if IsSuccessStatusCode(r.statusCode) && r.content.Some? then r.content.value.objects else []
  }

  /** The entries of a run of responses, in order. */
  function Collected(rs: seq<Response>): seq<RealEstateAgent> {
    if rs == [] then [] else Collected(rs[..|rs| - 1]) + Objects(rs[|rs| - 1])
  }

  /** The position of the first response that ends the walk, or `|rs|` if none does. */
  function FirstStop(rs: seq<Response>): (m: nat)
    ensures m <= |rs|
    ensures m < |rs| ==> Stops(rs[m])
    ensures forall j :: 0 <= j < m ==> !Stops(rs[j])
  {
    if rs == [] then 0
    else if Stops(rs[0]) then 0
    else 1 + FirstStop(rs[1..])
  }

  /**
   The entries with the offer type set to `k`: the loop that stamps every collected entry. Ids,
   names and counts are kept.
   */
  function Stamp(xs: seq<RealEstateAgent>, k: OfferType): (r: seq<RealEstateAgent>)
    ensures |r| == |xs|
    ensures forall i :: 0 <= i < |r| ==>
      && r[i].offerType == k
      && r[i].makelaarId == xs[i].makelaarId
      && r[i].makelaarNaam == xs[i].makelaarNaam
      && r[i].count == xs[i].count
  {
    seq(|xs|, i requires 0 <= i < |xs| => SetOfferType(xs[i], k))
  }

  /**
   What one fetch yields, stated on the whole response sequence at once: the walk ends at the
   first successful response that is null or announces no next page; a null body is an error;
   otherwise the result is every decoded page's entries up to and including that one, stamped
   with `kind`. Failed requests contribute nothing and are skipped.
   */
  function FetchResult(kind: OfferType, rs: seq<Response>): FetchOutcome {
    var m := FirstStop(rs);
    if m == |rs| then Unfinished
    else if rs[m].content.None? then Failed(InvalidOperation(NullContentMessage))
    else Done(Stamp(Collected(rs[..m + 1]), kind))
  }

  /** The number of requests a fetch makes before it ends or the responses run out. */
  function RequestCount(rs: seq<Response>): nat {
    var m := FirstStop(rs);
    if m == |rs| then |rs| else m + 1
  }

  /** The walk stops at `i` when response `i` is the first that ends it. */
  lemma FirstStopAt(rs: seq<Response>, i: nat)
    requires i < |rs| && Stops(rs[i])
    requires forall j :: 0 <= j < i ==> !Stops(rs[j])
    ensures FirstStop(rs) == i
  {
  }

  /** Without a response that ends it, the walk uses up every response. */
  lemma ResultWithoutStop(kind: OfferType, rs: seq<Response>)
    requires forall j :: 0 <= j < |rs| ==> !Stops(rs[j])
    ensures FirstStop(rs) == |rs| && RequestCount(rs) == |rs|
    ensures FetchResult(kind, rs) == Unfinished
  {
  }

  lemma CollectedSnoc(rs: seq<Response>, i: nat)
    requires i < |rs|
    ensures Collected(rs[..i + 1]) == Collected(rs[..i]) + Objects(rs[i])
  {
    assert rs[..i + 1][..i] == rs[..i];
  }

  /**
   How the walk moves the query on after a failed request: `AsWritten` is the client's own
   rewrite, which replaces the bare `&page=`; `Corrected` is the success path's rewrite.
   */
  datatype FailureRewrite = AsWritten | Corrected

  /** The query requested after `url`, the query for page `page`, got `r`. */
  function NextQuery(w: FailureRewrite, url: string, r: Response, page: nat): string {
    if IsSuccessStatusCode(r.statusCode) || w == Corrected then AdvanceQuery(url, page)
    else FailureQueryAsWritten(url, page + 1)
  }

  /**
   `reqs` are the queries a walk over `rs` sends: page 1's query first, then each one moved on
   from the one before according to the response it got.
   */
  predicate IsRequestTrace(w: FailureRewrite, t: Session, reqs: seq<string>, rs: seq<Response>) {
    && |reqs| <= |rs|
    && (reqs != [] ==> reqs[0] == PageQuery(t, 1))
    && forall j :: 0 <= j < |reqs| - 1 ==> reqs[j + 1] == NextQuery(w, reqs[j], rs[j], 1 + j)
  }

  /** Every request before position `j` succeeded. */
  predicate SucceededBefore(rs: seq<Response>, j: nat)
    requires j <= |rs|
  {
    forall l :: 0 <= l < j ==> IsSuccessStatusCode(rs[l].statusCode)
  }

  /**
   Request `j` is the query for page `j + 1` as long as no earlier request failed; with the
   corrected rewrite, always.
   */
  lemma {:induction false} TraceFollowsPages(w: FailureRewrite, t: Session, reqs: seq<string>, rs: seq<Response>)
    requires WellFormed(t) && IsRequestTrace(w, t, reqs, rs)
    ensures forall j :: 0 <= j < |reqs| && (w == Corrected || SucceededBefore(rs, j)) ==>
      reqs[j] == PageQuery(t, 1 + j)
    decreases |reqs|
  {
    if reqs != [] {
      var n := |reqs| - 1;
      assert IsRequestTrace(w, t, reqs[..n], rs);
      TraceFollowsPages(w, t, reqs[..n], rs);
      if n > 0 && (w == Corrected || SucceededBefore(rs, n)) {
        assert reqs[..n][n - 1] == reqs[n - 1];
        assert reqs[n - 1] == PageQuery(t, n);
        AdvanceQueryStep(t, n);
      }
    }
  }

  /**
   The client's own rewrite after a failed first request: the second request asks for
   `&page=21`, and a success there makes the third ask for `&page=31`.
   */
  lemma TraceAfterFirstFailure(t: Session, reqs: seq<string>, rs: seq<Response>)
    requires WellFormed(t) && IsRequestTrace(AsWritten, t, reqs, rs)
    requires |reqs| >= 2 && !IsSuccessStatusCode(rs[0].statusCode)
    ensures reqs[1] == QueryWithPage(t, "21")
    ensures |reqs| >= 3 && IsSuccessStatusCode(rs[1].statusCode) ==> reqs[2] == QueryWithPage(t, "31")
  {
    SmallDigits();
    FailureQueryAsWrittenStep(t, 1);
    assert Digits(2) + Digits(1) == "21";
    if |reqs| >= 3 && IsSuccessStatusCode(rs[1].statusCode) {
      AdvanceAfterFailureAsWritten(t, 1);
      DigitThree();
      assert Digits(3) + Digits(1) == "31";
    }
  }

  /**
   `GetPurchaseOffersAsync` and `GetRentOffersAsync` (with `w == AsWritten`): request page 1's
   query, then move the query on after each response with `NextQuery` (the line-94 rewrite
   after a success, the line-77 rewrite after a failure), which is the next page's query only
   while no request has failed; collect nothing from a failed request; throw on a null body;
   collect the entries of every decoded page; go on while the paging block announces a next
   page; finally stamp every entry with `kind`. `requests` are the queries sent, in order.
   */
  method FetchOffers(kind: OfferType, t: Session, responses: seq<Response>, w: FailureRewrite)
    returns (r: FetchOutcome, requests: seq<string>)
    ensures r == FetchResult(kind, responses)
    ensures |requests| == RequestCount(responses)
    ensures IsRequestTrace(w, t, requests, responses)
    ensures WellFormed(t) ==> forall j :: 0 <= j < |requests| && (w == Corrected || SucceededBefore(responses, j)) ==>
      requests[j] == PageQuery(t, 1 + j)
  {
    var page: nat := 1;
    var url := PageQuery(t, page);
    var collected: seq<RealEstateAgent> := [];
    requests := [];
    var i := 0;
    while i < |responses|
      invariant 0 <= i <= |responses|
      invariant page == 1 + i
      invariant forall j :: 0 <= j < i ==> !Stops(responses[j])
      invariant collected == Collected(responses[..i])
      invariant |requests| == i
      invariant IsRequestTrace(w, t, requests, responses)
      invariant i == 0 ==> url == PageQuery(t, 1)
      invariant i > 0 ==> url == NextQuery(w, requests[i - 1], responses[i - 1], i)
    {
      var response := responses[i];
      TraceSnoc(w, t, requests, responses, url);
      requests := requests + [url];
      CollectedSnoc(responses, i);
      if !IsSuccessStatusCode(response.statusCode) {
        // `page++` and then the rewrite: `NextQuery` gives the rewrite `w` names.
        url := NextQuery(w, url, response, page);
        page := page + 1;
        i := i + 1;
      } else if response.content.None? {
        FirstStopAt(responses, i);
        r := Failed(InvalidOperation(NullContentMessage));
        RequestFacts(w, t, requests, responses);
        return;
      } else {
        var data := response.content.value;
        collected := collected + data.objects;
        if HasNextPage(data.paging) {
          url := NextQuery(w, url, response, page);
          page := page + 1;
          i := i + 1;
        } else {
          FirstStopAt(responses, i);
          r := Done(Stamp(collected, kind));
          RequestFacts(w, t, requests, responses);
          return;
        }
      }
    }
    ResultWithoutStop(kind, responses);
    r := Unfinished;
    RequestFacts(w, t, requests, responses);
  }

  /** A trace grows by the query the walk sends next. */
  lemma TraceSnoc(w: FailureRewrite, t: Session, reqs: seq<string>, rs: seq<Response>, url: string)
    requires IsRequestTrace(w, t, reqs, rs) && |reqs| < |rs|
    requires reqs == [] ==> url == PageQuery(t, 1)
    requires reqs != [] ==> url == NextQuery(w, reqs[|reqs| - 1], rs[|reqs| - 1], |reqs|)
    ensures IsRequestTrace(w, t, reqs + [url], rs)
  {
    var s := reqs + [url];
    forall j | 0 <= j < |s| - 1 ensures s[j + 1] == NextQuery(w, s[j], rs[j], 1 + j) {
      if j + 1 < |reqs| {
        assert s[j + 1] == reqs[j + 1] && s[j] == reqs[j];
      }
    }
  }

  /**
   `TraceFollowsPages` guarded by `WellFormed(t)`, which is the form of `FetchOffers`'
   last ensures: the method does not require a well-formed session, so it states the page
   numbers only for one.
   */
  lemma RequestFacts(w: FailureRewrite, t: Session, reqs: seq<string>, rs: seq<Response>)
    requires IsRequestTrace(w, t, reqs, rs)
    ensures WellFormed(t) ==> forall j :: 0 <= j < |reqs| && (w == Corrected || SucceededBefore(rs, j)) ==>
      reqs[j] == PageQuery(t, 1 + j)
  {
    if WellFormed(t) {
      TraceFollowsPages(w, t, reqs, rs);
    }
  }

  // ---------------------------------------------------------------------------------------
  // What a fetch promises.

  /** When every request fails, nothing is collected and the walk never ends by itself. */
  lemma {:induction false} AllFailuresNeverEnd(rs: seq<Response>, kind: OfferType)
    requires forall i :: 0 <= i < |rs| ==> !IsSuccessStatusCode(rs[i].statusCode)
    ensures Collected(rs) == []
    ensures FetchResult(kind, rs) == Unfinished
    decreases |rs|
  {
    if rs != [] {
      AllFailuresNeverEnd(rs[..|rs| - 1], kind);
    }
  }

  /** Failed requests in front of the pages change nothing but the number of requests. */
  lemma {:induction false} FailuresAreSkipped(f: Response, rs: seq<Response>, kind: OfferType)
    requires !IsSuccessStatusCode(f.statusCode)
    ensures FetchResult(kind, [f] + rs) == FetchResult(kind, rs)
    ensures RequestCount([f] + rs) == RequestCount(rs) + 1
  {
    var s := [f] + rs;
    assert s[1..] == rs;
    var m := FirstStop(rs);
    assert FirstStop(s) == m + 1;
    if m < |rs| {
      CollectedOfCons(f, rs[..m + 1]);
      assert s[..m + 2] == [f] + rs[..m + 1];
    }
  }

  lemma {:induction false} CollectedOfCons(f: Response, rs: seq<Response>)
    requires !IsSuccessStatusCode(f.statusCode)
    ensures Collected([f] + rs) == Collected(rs)
    decreases |rs|
  {
    if rs == [] {
      assert ([f] + rs)[..0] == [];
    } else {
      var n := |rs| - 1;
      CollectedOfCons(f, rs[..n]);
      assert ([f] + rs)[..n + 1] == [f] + rs[..n];
    }
  }

  /**
   A fetch that ends normally returns every entry of every page it decoded, each stamped with
   the fetch's offer type: the entries and their order are those of the pages.
   */
  lemma FetchedEntries(kind: OfferType, rs: seq<Response>)
    requires FetchResult(kind, rs).Done?
    ensures var recs := FetchResult(kind, rs).records;
      var raw := Collected(rs[..FirstStop(rs) + 1]);
      && |recs| == |raw|
      && forall i :: 0 <= i < |recs| ==> recs[i] == SetOfferType(raw[i], kind)
  {
  }

  /** A single decoded page that announces no next page is the whole fetch. */
  lemma SinglePage(kind: OfferType, code: int, data: RealEstateData)
    requires IsSuccessStatusCode(code) && !HasNextPage(data.paging)
    ensures FetchResult(kind, [Response(code, Some(data))]) == Done(Stamp(data.objects, kind))
    ensures RequestCount([Response(code, Some(data))]) == 1
  {
    var rs := [Response(code, Some(data))];
    FirstStopAt(rs, 0);
    assert rs[..1] == rs;
    assert rs[..0] == [];
    assert Collected(rs) == Collected([]) + Objects(rs[0]);
  }

  /** A null body on a successful response ends the fetch with an error, whatever came before. */
  lemma NullBodyFails(kind: OfferType, rs: seq<Response>, code: int)
    requires forall i :: 0 <= i < |rs| ==> !Stops(rs[i])
    requires IsSuccessStatusCode(code)
    ensures FetchResult(kind, rs + [Response(code, None)]) == Failed(InvalidOperation(NullContentMessage))
  {
    var s := rs + [Response(code, None)];
    assert s[|rs|] == Response(code, None);
    assert forall j :: 0 <= j < |rs| ==> s[j] == rs[j];
    assert FirstStop(s) == |rs|;
  }

  // ---------------------------------------------------------------------------------------
  // `GetBrokerData`.

  /** `string.ToLower` on ASCII letters. */
  function ToLower(s: string): (r: string)
    ensures |r| == |s|
    ensures forall i :: 0 <= i < |r| ==> !('A' <= r[i] <= 'Z')
    ensures forall i :: 0 <= i < |s| && !('A' <= s[i] <= 'Z') ==> r[i] == s[i]
    ensures forall i :: 0 <= i < |s| && 'A' <= s[i] <= 'Z' ==> r[i] as int == s[i] as int + 32
  {
    seq(|s|, i requires 0 <= i < |s| => if 'A' <= s[i] <= 'Z' then (s[i] as int + 32) as char else s[i])
  }

  /** The fetches an objective asks for. */
  datatype Objective = AllAmsterdam | Garden

  /**
   The objective test: `allamsterdam` in any letter case, or exactly `garden`; anything else is
   an argument error naming the objective.
   */
  function ParseObjective(objective: string): (r: Result<Objective>)
    ensures r == Ok(AllAmsterdam) <==> ToLower(objective) == "allamsterdam"
    ensures r == Ok(Garden) <==> ToLower(objective) != "allamsterdam" && objective == "garden"
    ensures r.Err? ==> r.error == Argument(UnsupportedObjectiveMessage(objective))
  {
    if ToLower(objective) == "allamsterdam" then Ok(AllAmsterdam)
    else if objective == "garden" then Ok(Garden)
    else Err(Argument(UnsupportedObjectiveMessage(objective)))
  }

  datatype Result<T> = Ok(value: T) | Err(error: ClientError)

  /** Purchase entries followed by rent entries; the first fetch that does not finish decides. */
  function Concatenated(purchase: FetchOutcome, rent: FetchOutcome): FetchOutcome {
    if !purchase.Done? then purchase
    else if !rent.Done? then rent
    else Done(purchase.records + rent.records)
  }

  /**
   `GetBrokerData`: for `allamsterdam` the purchase fetch and then the rent fetch, their entries
   concatenated; for `garden` the purchase fetch with the search term `tuin/`; otherwise an
   argument error. `feed` gives the responses the feed returns to a session's requests.
   */
  method GetBrokerData(objective: string := "allamsterdam", feed: Session -> seq<Response>) returns (r: FetchOutcome)
    ensures ToLower(objective) == "allamsterdam" ==>
      r == Concatenated(FetchResult(Purchase, feed(PurchaseSession(""))), FetchResult(Rent, feed(RentSession())))
    ensures ToLower(objective) != "allamsterdam" && objective == "garden" ==>
      r == FetchResult(Purchase, feed(PurchaseSession("tuin/")))
    ensures ToLower(objective) != "allamsterdam" && objective != "garden" ==>
      r == Failed(Argument(UnsupportedObjectiveMessage(objective)))
  {
    var parsed := ParseObjective(objective);
    match parsed {
      case Err(e) =>
        r := Failed(e);
      case Ok(AllAmsterdam) =>
        var purchase, _ := FetchOffers(Purchase, PurchaseSession(""), feed(PurchaseSession("")), AsWritten);
        if !purchase.Done? {
          r := purchase;
        } else {
          var rent, _ := FetchOffers(Rent, RentSession(), feed(RentSession()), AsWritten);
          r := if rent.Done? then Done(purchase.records + rent.records) else rent;
        }
      case Ok(Garden) =>
        var garden, _ := FetchOffers(Purchase, PurchaseSession("tuin/"), feed(PurchaseSession("tuin/")), AsWritten);
        r := garden;
    }
  }

  /**
   `s` spells `allamsterdam` with each letter in either case, stated letter by letter against
   the lower- and upper-case spellings.
   */
  predicate SpellsAllAmsterdam(s: string) {
    var lower := "allamsterdam";
    var upper := "ALLAMSTERDAM";
    |s| == |lower| && forall i :: 0 <= i < |s| ==> s[i] == lower[i] || s[i] == upper[i]
  }

  /**
   The objectives the client accepts: exactly the case variants of `allamsterdam`, and the one
   spelling `garden`.
   */
  lemma AcceptedObjectives(s: string)
    ensures ParseObjective(s) == Ok(AllAmsterdam) <==> SpellsAllAmsterdam(s)
    ensures ParseObjective(s) == Ok(Garden) <==> s == "garden"
  {
    var lower := "allamsterdam";
    var upper := "ALLAMSTERDAM";
    if ToLower(s) == lower {
      forall i | 0 <= i < |s| ensures s[i] == lower[i] || s[i] == upper[i] {
        assert ToLower(s)[i] == lower[i];
      }
    }
    if SpellsAllAmsterdam(s) {
      forall i | 0 <= i < |s| ensures ToLower(s)[i] == lower[i] {
        assert s[i] == lower[i] || s[i] == upper[i];
      }
      assert ToLower(s) == lower;
    }
    if s == "garden" {
      assert |ToLower(s)| != |lower|;
    }
  }

  /** The objective's letter case matters for `garden` but not for `allamsterdam`. */
  lemma ObjectiveSpelling()
    ensures ParseObjective("allamsterdam") == Ok(AllAmsterdam)
    ensures ParseObjective("AllAmsterdam") == Ok(AllAmsterdam)
    ensures ParseObjective("garden") == Ok(Garden)
    ensures ParseObjective("Garden") == Err(Argument(UnsupportedObjectiveMessage("Garden")))
  {
    assert ToLower("AllAmsterdam") == "allamsterdam";
    assert ToLower("garden") == "garden";
    assert ToLower("Garden") == "garden";
  }

  /** Every session the client uses builds queries with exactly four parameters. */
  lemma ClientSessionsWellFormed()
    ensures WellFormed(PurchaseSession(""))
    ensures WellFormed(PurchaseSession("tuin/"))
    ensures WellFormed(RentSession())
  {
    assert PurchaseSession("tuin/").area == "tuin//";
  }

  /**
   How `Concatenated` joins the purchase and the rent fetch: the purchase entries first, all
   stamped Purchase, then the rent entries, all stamped Rent. For `allamsterdam` this is the
   result of `GetBrokerData`, by that method's first ensures.
   */
  lemma BrokerDataStamped(feed: Session -> seq<Response>)
    requires Concatenated(FetchResult(Purchase, feed(PurchaseSession(""))), FetchResult(Rent, feed(RentSession()))).Done?
    ensures var p := FetchResult(Purchase, feed(PurchaseSession("")));
      var q := FetchResult(Rent, feed(RentSession()));
      var recs := Concatenated(p, q).records;
      && |recs| == |p.records| + |q.records|
      && (forall i :: 0 <= i < |p.records| ==> recs[i].offerType == Purchase)
      && (forall i :: |p.records| <= i < |recs| ==> recs[i].offerType == Rent)
  {
  }
}

=== FILE: grouping.dfy ===
/**
 LINQ's `GroupBy(a => a.MakelaarId)` followed by the transformer's `Select`, which turns each
 group into one summary entry. `GroupBy` emits its groups in the order in which each key first
 appears in the input, and keeps each group's elements in input order; the model builds the
 groups the way a lookup does, one input record at a time.
 */
module Grouping {
  import opened Records

  /** One group: its key and the records carrying that key, in input order. */
  datatype Group = Group(key: int32, elements: seq<RealEstateAgent>)

  /** Some record of `xs` has broker id `k`. */
  ghost predicate Mentions(xs: seq<RealEstateAgent>, k: int32) {
    exists i :: 0 <= i < |xs| && xs[i].makelaarId == k
  }

  /** The positions of `xs` whose broker id is `k`. */
  ghost function Occurrences(xs: seq<RealEstateAgent>, k: int32): set<nat> {
    set i: nat | i < |xs| && xs[i].makelaarId == k
  }

  /** The records of `xs` whose broker id is `k`, in input order. */
  function WithId(xs: seq<RealEstateAgent>, k: int32): (r: seq<RealEstateAgent>)
    ensures forall a :: a in r ==> a in xs && a.makelaarId == k
    ensures |r| == |Occurrences(xs, k)|
    decreases |xs|
  {
    if xs == [] then []
    else
      var init := xs[..|xs| - 1];
      var last := xs[|xs| - 1];
      OccurrencesOfSnoc(init, last, k);
      assert init + [last] == xs;
      WithId(init, k) + (if last.makelaarId == k then [last] else [])
  }

  /** How `Occurrences` grows when one record is appended. */
  lemma OccurrencesOfSnoc(xs: seq<RealEstateAgent>, x: RealEstateAgent, k: int32)
    ensures x.makelaarId == k ==> Occurrences(xs + [x], k) == Occurrences(xs, k) + {|xs|}
    ensures x.makelaarId != k ==> Occurrences(xs + [x], k) == Occurrences(xs, k)
    ensures |xs| !in Occurrences(xs, k)
  {
    var ys := xs + [x];
    if x.makelaarId == k {
      forall i | i in Occurrences(ys, k) ensures i in Occurrences(xs, k) + {|xs|} {
        if i < |xs| { assert ys[i] == xs[i]; }
      }
      forall i | i in Occurrences(xs, k) + {|xs|} ensures i in Occurrences(ys, k) {
        if i < |xs| { assert ys[i] == xs[i]; }
      }
    } else {
      forall i | i in Occurrences(ys, k) ensures i in Occurrences(xs, k) {
        if i < |xs| { assert ys[i] == xs[i]; }
      }
      forall i | i in Occurrences(xs, k) ensures i in Occurrences(ys, k) {
        assert ys[i] == xs[i];
      }
    }
  }

  /** The position of the first record of `xs` with broker id `k`, or `|xs|` when there is none. */
  function FirstIndex(xs: seq<RealEstateAgent>, k: int32): (r: nat)
    ensures r <= |xs|
    ensures r < |xs| <==> Mentions(xs, k)
    ensures r < |xs| ==> xs[r].makelaarId == k
    ensures forall j :: 0 <= j < r ==> xs[j].makelaarId != k
  {
    if xs == [] then 0
    else if xs[0].makelaarId == k then 0
    else
      var r := 1 + FirstIndex(xs[1..], k);
      assert forall j :: 1 <= j < |xs| ==> xs[j] == xs[1..][j - 1];
      r
  }

  /** The keys of `gs`, in order. */
  function Keys(gs: seq<Group>): (ks: seq<int32>)
    ensures |ks| == |gs|
    ensures forall i :: 0 <= i < |gs| ==> ks[i] == gs[i].key
  {
    seq(|gs|, i requires 0 <= i < |gs| => gs[i].key)
  }

  /** The position of the first `k` in `ks`, or `|ks|` when there is none. */
  function IndexOf(ks: seq<int32>, k: int32): (p: nat)
    ensures p <= |ks|
    ensures p < |ks| ==> ks[p] == k
    ensures forall j :: 0 <= j < p ==> ks[j] != k
  {
    if ks == [] then 0
    else if ks[0] == k then 0
    else 1 + IndexOf(ks[1..], k)
  }

  /** The position of the group with key `k` in `gs`, or `|gs|` when there is none. */
  function IndexOfKey(gs: seq<Group>, k: int32): (p: nat)
    ensures p <= |gs|
    ensures p < |gs| ==> gs[p].key == k
    ensures forall j :: 0 <= j < p ==> gs[j].key != k
  {
    IndexOf(Keys(gs), k)
  }

  /** Files one record into the groups built so far: into its key's group, or a new last group. */
  function Place(gs: seq<Group>, x: RealEstateAgent): seq<Group> {
    var p := IndexOfKey(gs, x.makelaarId);
    if p < |gs| then gs[p := Group(gs[p].key, gs[p].elements + [x])]
    else gs + [Group(x.makelaarId, [x])]
  }

  /** Each group holds exactly the records of its key, in input order. */
  ghost predicate ExactGroups(gs: seq<Group>, xs: seq<RealEstateAgent>) {
    forall i :: 0 <= i < |gs| ==> gs[i].elements == WithId(xs, gs[i].key)
  }

  /** No key has two groups. */
  ghost predicate DistinctKeys(gs: seq<Group>) {
    forall i, j :: 0 <= i < j < |gs| ==> gs[i].key != gs[j].key
  }

  /** The keys of `gs` are exactly the broker ids of `xs`. */
  ghost predicate CoversIds(gs: seq<Group>, xs: seq<RealEstateAgent>) {
    forall k :: Mentions(xs, k) <==> IndexOfKey(gs, k) < |gs|
  }

  /** The groups are ordered by the position at which their key first appears in `xs`. */
  ghost predicate FirstAppearanceOrder(gs: seq<Group>, xs: seq<RealEstateAgent>) {
    forall i, j :: 0 <= i < j < |gs| ==> FirstIndex(xs, gs[i].key) < FirstIndex(xs, gs[j].key)
  }

  /** `gs` is the grouping of `xs` by broker id. */
  ghost predicate IsGroupingOf(gs: seq<Group>, xs: seq<RealEstateAgent>) {
    ExactGroups(gs, xs) && DistinctKeys(gs) && CoversIds(gs, xs) && FirstAppearanceOrder(gs, xs)
  }

  /** `GroupBy(a => a.MakelaarId)`. */
  function GroupBy(xs: seq<RealEstateAgent>): (gs: seq<Group>)
    ensures IsGroupingOf(gs, xs)
    decreases |xs|
  {
    if xs == [] then []
    else
      var init := xs[..|xs| - 1];
      var last := xs[|xs| - 1];
      assert init + [last] == xs;
      PlaceExtendsGrouping(GroupBy(init), init, last);
      Place(GroupBy(init), last)
  }

  /** Filing one more record keeps the grouping exact. */
  lemma PlaceExtendsGrouping(gs: seq<Group>, xs: seq<RealEstateAgent>, x: RealEstateAgent)
    requires IsGroupingOf(gs, xs)
    ensures IsGroupingOf(Place(gs, x), xs + [x])
  {
    if IndexOfKey(gs, x.makelaarId) < |gs| {
      PlaceExistingExact(gs, xs, x);
      PlaceExistingCovers(gs, xs, x);
      PlaceExistingOrder(gs, xs, x);
    } else {
      PlaceNewExact(gs, xs, x);
      PlaceNewCovers(gs, xs, x);
      PlaceNewOrder(gs, xs, x);
    }
  }

  lemma PlaceExistingExact(gs: seq<Group>, xs: seq<RealEstateAgent>, x: RealEstateAgent)
    requires ExactGroups(gs, xs) && DistinctKeys(gs)
    requires IndexOfKey(gs, x.makelaarId) < |gs|
    ensures ExactGroups(Place(gs, x), xs + [x])
  {
    var ys := xs + [x];
    assert ys[..|ys| - 1] == xs;
    var hs := Place(gs, x);
    forall i | 0 <= i < |hs| ensures hs[i].elements == WithId(ys, hs[i].key) {
      assert hs[i].key == gs[i].key;
    }
  }

  lemma PlaceExistingCovers(gs: seq<Group>, xs: seq<RealEstateAgent>, x: RealEstateAgent)
    requires DistinctKeys(gs) && CoversIds(gs, xs)
    requires IndexOfKey(gs, x.makelaarId) < |gs|
    ensures DistinctKeys(Place(gs, x)) && CoversIds(Place(gs, x), xs + [x])
  {
    var hs := Place(gs, x);
    KeysOfUpdate(gs, hs);
    forall k ensures Mentions(xs + [x], k) <==> IndexOfKey(hs, k) < |hs| {
      MentionsOfSnoc(xs, x, k);
    }
  }

  lemma PlaceExistingOrder(gs: seq<Group>, xs: seq<RealEstateAgent>, x: RealEstateAgent)
    requires IsGroupingOf(gs, xs)
    requires IndexOfKey(gs, x.makelaarId) < |gs|
    ensures FirstAppearanceOrder(Place(gs, x), xs + [x])
  {
    var ys := xs + [x];
    var hs := Place(gs, x);
    forall i, j | 0 <= i < j < |hs| ensures FirstIndex(ys, hs[i].key) < FirstIndex(ys, hs[j].key) {
      GroupKeyIsMentioned(gs, xs, i);
      GroupKeyIsMentioned(gs, xs, j);
      FirstIndexOfSnoc(xs, x, gs[i].key);
      FirstIndexOfSnoc(xs, x, gs[j].key);
    }
  }

  lemma PlaceNewExact(gs: seq<Group>, xs: seq<RealEstateAgent>, x: RealEstateAgent)
    requires ExactGroups(gs, xs) && CoversIds(gs, xs)
    requires IndexOfKey(gs, x.makelaarId) == |gs|
    ensures ExactGroups(Place(gs, x), xs + [x])
  {
    var ys := xs + [x];
    assert ys[..|ys| - 1] == xs;
    var hs := Place(gs, x);
    NoMentionNoRecords(xs, x.makelaarId);
    assert WithId(ys, x.makelaarId) == [x];
    forall i | 0 <= i < |hs| ensures hs[i].elements == WithId(ys, hs[i].key) {
      if i < |gs| {
        assert hs[i] == gs[i];
      } else {
        assert hs[i] == Group(x.makelaarId, [x]);
      }
    }
  }

  lemma PlaceNewCovers(gs: seq<Group>, xs: seq<RealEstateAgent>, x: RealEstateAgent)
    requires DistinctKeys(gs) && CoversIds(gs, xs)
    requires IndexOfKey(gs, x.makelaarId) == |gs|
    ensures DistinctKeys(Place(gs, x)) && CoversIds(Place(gs, x), xs + [x])
  {
    var hs := Place(gs, x);
    KeysOfAppend(gs, Group(x.makelaarId, [x]));
    forall k ensures Mentions(xs + [x], k) <==> IndexOfKey(hs, k) < |hs| {
      MentionsOfSnoc(xs, x, k);
    }
  }

  lemma PlaceNewOrder(gs: seq<Group>, xs: seq<RealEstateAgent>, x: RealEstateAgent)
    requires IsGroupingOf(gs, xs)
    requires IndexOfKey(gs, x.makelaarId) == |gs|
    ensures FirstAppearanceOrder(Place(gs, x), xs + [x])
  {
    var ys := xs + [x];
    var hs := Place(gs, x);
    FirstIndexOfSnoc(xs, x, x.makelaarId);
    forall i, j | 0 <= i < j < |hs| ensures FirstIndex(ys, hs[i].key) < FirstIndex(ys, hs[j].key) {
      GroupKeyIsMentioned(gs, xs, i);
      FirstIndexOfSnoc(xs, x, gs[i].key);
      if j < |gs| {
        GroupKeyIsMentioned(gs, xs, j);
        FirstIndexOfSnoc(xs, x, gs[j].key);
      }
    }
  }

  /** Replacing one group's elements keeps every key where it was. */
  lemma KeysOfUpdate(gs: seq<Group>, hs: seq<Group>)
    requires |gs| == |hs|
    requires forall i :: 0 <= i < |gs| ==> gs[i].key == hs[i].key
    ensures forall k :: IndexOfKey(hs, k) == IndexOfKey(gs, k)
    ensures DistinctKeys(gs) ==> DistinctKeys(hs)
  {
    forall k ensures IndexOfKey(hs, k) == IndexOfKey(gs, k) {
      var a, b := IndexOfKey(hs, k), IndexOfKey(gs, k);
    }
  }

  /** Where a key is found once one more key is appended. */
  lemma IndexOfSnoc(ks: seq<int32>, v: int32, k: int32)
    ensures IndexOf(ks + [v], k) ==
      (if IndexOf(ks, k) < |ks| then IndexOf(ks, k) else if v == k then |ks| else |ks| + 1)
  {
    var ls := ks + [v];
    var a, b := IndexOf(ls, k), IndexOf(ks, k);
    if b < |ks| {
      assert ls[b] == ks[b];
    } else {
      if v == k { assert ls[|ks|] == k; }
    }
  }

  /** Appending a group with a new key keeps the other keys where they were. */
  lemma KeysOfAppend(gs: seq<Group>, g: Group)
    requires IndexOfKey(gs, g.key) == |gs|
    ensures forall k :: k != g.key ==> IndexOfKey(gs + [g], k) == IndexOfKey(gs, k) || IndexOfKey(gs, k) == |gs|
    ensures forall k :: k != g.key && IndexOfKey(gs, k) == |gs| ==> IndexOfKey(gs + [g], k) == |gs| + 1
    ensures IndexOfKey(gs + [g], g.key) == |gs|
    ensures DistinctKeys(gs) ==> DistinctKeys(gs + [g])
  {
    var hs := gs + [g];
    assert Keys(hs) == Keys(gs) + [g.key];
    forall k {
      IndexOfSnoc(Keys(gs), g.key, k);
    }
    if DistinctKeys(gs) {
      forall i, j | 0 <= i < j < |hs| ensures hs[i].key != hs[j].key {
        if j == |gs| { assert hs[i] == gs[i]; }
      }
    }
  }

  lemma GroupKeyIsMentioned(gs: seq<Group>, xs: seq<RealEstateAgent>, i: int)
    requires DistinctKeys(gs) && CoversIds(gs, xs)
    requires 0 <= i < |gs|
    ensures Mentions(xs, gs[i].key)
  {
    var p := IndexOfKey(gs, gs[i].key);
  }

  /** Every group of an exact grouping is non-empty. */
  lemma GroupsAreNonEmpty(gs: seq<Group>, xs: seq<RealEstateAgent>)
    requires IsGroupingOf(gs, xs)
    ensures forall i :: 0 <= i < |gs| ==> gs[i].elements != []
  {
    forall i | 0 <= i < |gs| ensures gs[i].elements != [] {
      GroupKeyIsMentioned(gs, xs, i);
      var j := FirstIndex(xs, gs[i].key);
      assert j in Occurrences(xs, gs[i].key);
    }
  }

  lemma MentionsOfSnoc(xs: seq<RealEstateAgent>, x: RealEstateAgent, k: int32)
    ensures Mentions(xs + [x], k) <==> Mentions(xs, k) || x.makelaarId == k
  {
    var ys := xs + [x];
    if Mentions(xs, k) {
      var i :| 0 <= i < |xs| && xs[i].makelaarId == k;
      assert ys[i] == xs[i];
    }
    if x.makelaarId == k { assert ys[|xs|] == x; }
    if Mentions(ys, k) {
      var i :| 0 <= i < |ys| && ys[i].makelaarId == k;
      if i < |xs| { assert ys[i] == xs[i]; }
    }
  }

  lemma FirstIndexOfSnoc(xs: seq<RealEstateAgent>, x: RealEstateAgent, k: int32)
    ensures Mentions(xs, k) ==> FirstIndex(xs + [x], k) == FirstIndex(xs, k)
    ensures !Mentions(xs, k) && x.makelaarId == k ==> FirstIndex(xs + [x], k) == |xs|
  {
    var ys := xs + [x];
    var a := FirstIndex(ys, k);
    var b := FirstIndex(xs, k);
    MentionsOfSnoc(xs, x, k);
    if Mentions(xs, k) {
      assert ys[b] == xs[b];
    }
  }

  lemma NoMentionNoRecords(xs: seq<RealEstateAgent>, k: int32)
    requires !Mentions(xs, k)
    ensures WithId(xs, k) == []
  {
  }

  /** The transformer's `Select`: one entry per group, named and typed after the group's first record. */
  function Summarize(g: Group): RealEstateAgent
    requires g.elements != []
  {
    RealEstateAgent(g.key, g.elements[0].makelaarNaam, g.elements[0].offerType, |g.elements|)
  }

  /** `GroupBy(...).Select(...)`: one summary per distinct broker id, in first-appearance order. */
  function Summaries(xs: seq<RealEstateAgent>): (r: seq<RealEstateAgent>)
  {
    var gs := GroupBy(xs);
    GroupsAreNonEmpty(gs, xs);
    seq(|gs|, i requires 0 <= i < |gs| => Summarize(gs[i]))
  }

  /** The first record of a group is the first record of the input carrying its key. */
  lemma {:induction false} FirstOfGroupIsFirstInInput(xs: seq<RealEstateAgent>, k: int32)
    requires Mentions(xs, k)
    ensures WithId(xs, k) != []
    ensures WithId(xs, k)[0] == xs[FirstIndex(xs, k)]
    decreases |xs|
  {
    var init := xs[..|xs| - 1];
    var last := xs[|xs| - 1];
    assert init + [last] == xs;
    MentionsOfSnoc(init, last, k);
    FirstIndexOfSnoc(init, last, k);
    if Mentions(init, k) {
      FirstOfGroupIsFirstInInput(init, k);
      assert xs[FirstIndex(init, k)] == init[FirstIndex(init, k)];
    } else {
      NoMentionNoRecords(init, k);
    }
  }

  /** The total size of a sequence of groups. */
  function GroupSizes(gs: seq<Group>): nat {
    if gs == [] then 0 else |gs[0].elements| + GroupSizes(gs[1..])
  }

  /** The sum of the `Count` fields of a sequence of entries. */
  function SumCounts(s: seq<RealEstateAgent>): int {
    if s == [] then 0 else s[0].count + SumCounts(s[1..])
  }

  lemma {:induction false} GroupSizesOfUpdate(gs: seq<Group>, p: nat, g: Group)
    requires p < |gs|
    ensures GroupSizes(gs[p := g]) == GroupSizes(gs) - |gs[p].elements| + |g.elements|
    decreases p
  {
    if p > 0 {
      GroupSizesOfUpdate(gs[1..], p - 1, g);
      assert gs[p := g][1..] == gs[1..][p - 1 := g];
    }
  }

  lemma {:induction false} GroupSizesOfSnoc(gs: seq<Group>, g: Group)
    ensures GroupSizes(gs + [g]) == GroupSizes(gs) + |g.elements|
    decreases |gs|
  {
    if gs != [] {
      GroupSizesOfSnoc(gs[1..], g);
      assert (gs + [g])[1..] == gs[1..] + [g];
    }
  }

  /**
   Grouping is exhaustive and exclusive: every input record lands in exactly one group, so the
   group sizes add up to the length of the input.
   */
  lemma {:induction false} GroupSizesSumToLength(xs: seq<RealEstateAgent>)
    ensures GroupSizes(GroupBy(xs)) == |xs|
    decreases |xs|
  {
    if xs != [] {
      var init := xs[..|xs| - 1];
      var last := xs[|xs| - 1];
      GroupSizesSumToLength(init);
      var gs := GroupBy(init);
      var p := IndexOfKey(gs, last.makelaarId);
      if p < |gs| {
        GroupSizesOfUpdate(gs, p, Group(gs[p].key, gs[p].elements + [last]));
      } else {
        GroupSizesOfSnoc(gs, Group(last.makelaarId, [last]));
      }
    }
  }

  lemma {:induction false} SumCountsOfSizes(s: seq<RealEstateAgent>, gs: seq<Group>)
    requires |s| == |gs|
    requires forall i :: 0 <= i < |s| ==> s[i].count == |gs[i].elements|
    ensures SumCounts(s) == GroupSizes(gs)
    decreases |s|
  {
    if s != [] {
      SumCountsOfSizes(s[1..], gs[1..]);
    }
  }

  /** A broker id has a summary exactly when some record of `xs` carries it. */
  lemma SummariesCoverIds(xs: seq<RealEstateAgent>)
    ensures forall k :: Mentions(xs, k) ==>
      exists i :: 0 <= i < |Summaries(xs)| && Summaries(xs)[i].makelaarId == k
    ensures forall i :: 0 <= i < |Summaries(xs)| ==> Mentions(xs, Summaries(xs)[i].makelaarId)
  {
    var gs := GroupBy(xs);
    forall i | 0 <= i < |Summaries(xs)| ensures Mentions(xs, Summaries(xs)[i].makelaarId) {
      GroupKeyIsMentioned(gs, xs, i);
    }
    forall k | Mentions(xs, k) ensures exists i :: 0 <= i < |Summaries(xs)| && Summaries(xs)[i].makelaarId == k {
      var i := IndexOfKey(gs, k);
      assert Summaries(xs)[i].makelaarId == k;
    }
  }

  /**
   What each summary says: one entry per distinct broker id, in first-appearance order, whose
   count is the number of input records with that id and whose name and offer type are those
   of the first such record; before any truncation the counts add up to the input length.
   */
  lemma SummariesSpec(xs: seq<RealEstateAgent>)
    ensures var r := Summaries(xs);
      && (forall i :: 0 <= i < |r| ==> Mentions(xs, r[i].makelaarId))
      && (forall k :: Mentions(xs, k) ==> exists i :: 0 <= i < |r| && r[i].makelaarId == k)
      && (forall i, j :: 0 <= i < j < |r| ==> r[i].makelaarId != r[j].makelaarId)
      && (forall i, j :: 0 <= i < j < |r| ==>
            FirstIndex(xs, r[i].makelaarId) < FirstIndex(xs, r[j].makelaarId))
      && (forall i :: 0 <= i < |r| ==> r[i].count == |Occurrences(xs, r[i].makelaarId)| >= 1)
      && (forall i :: 0 <= i < |r| ==>
            && r[i].makelaarNaam == xs[FirstIndex(xs, r[i].makelaarId)].makelaarNaam
            && r[i].offerType == xs[FirstIndex(xs, r[i].makelaarId)].offerType)
      && SumCounts(r) == |xs|
  {
    var gs := GroupBy(xs);
    var r := Summaries(xs);
    GroupsAreNonEmpty(gs, xs);
    forall i | 0 <= i < |r|
      ensures Mentions(xs, r[i].makelaarId)
      ensures r[i].count == |Occurrences(xs, r[i].makelaarId)| >= 1
      ensures r[i].makelaarNaam == xs[FirstIndex(xs, r[i].makelaarId)].makelaarNaam
      ensures r[i].offerType == xs[FirstIndex(xs, r[i].makelaarId)].offerType
    {
      GroupKeyIsMentioned(gs, xs, i);
      FirstOfGroupIsFirstInInput(xs, gs[i].key);
    }
    forall k | Mentions(xs, k) ensures exists i :: 0 <= i < |r| && r[i].makelaarId == k {
      var i := IndexOfKey(gs, k);
      assert r[i].makelaarId == k;
    }
    GroupSizesSumToLength(xs);
    SumCountsOfSizes(r, gs);
  }

  // ---------------------------------------------------------------------------------------
  // What the summaries do not depend on, and the simplest input shape.

  /** Two listings that differ at most in their `Count` field. */
  predicate AlikeExceptCount(a: RealEstateAgent, b: RealEstateAgent) {
    a.makelaarId == b.makelaarId && a.makelaarNaam == b.makelaarNaam && a.offerType == b.offerType
  }

  /** `xs` and `ys` list the same listings, up to their `Count` fields. */
  ghost predicate SameExceptCounts(xs: seq<RealEstateAgent>, ys: seq<RealEstateAgent>) {
    |xs| == |ys| && forall i :: 0 <= i < |xs| ==> AlikeExceptCount(xs[i], ys[i])
  }

  /** Groups with the same keys and sizes whose first listings agree up to `Count`. */
  ghost predicate GroupsAlike(gs: seq<Group>, hs: seq<Group>) {
    && |gs| == |hs|
    && forall i :: 0 <= i < |gs| ==>
         && gs[i].key == hs[i].key
         && |gs[i].elements| == |hs[i].elements|
         && (gs[i].elements != [] ==> AlikeExceptCount(gs[i].elements[0], hs[i].elements[0]))
  }

  lemma PlaceAlike(gs: seq<Group>, hs: seq<Group>, x: RealEstateAgent, y: RealEstateAgent)
    requires GroupsAlike(gs, hs) && AlikeExceptCount(x, y)
    ensures GroupsAlike(Place(gs, x), Place(hs, y))
  {
    assert Keys(gs) == Keys(hs);
    assert IndexOfKey(gs, x.makelaarId) == IndexOfKey(hs, y.makelaarId);
  }

  lemma {:induction false} GroupByAlike(xs: seq<RealEstateAgent>, ys: seq<RealEstateAgent>)
    requires SameExceptCounts(xs, ys)
    ensures GroupsAlike(GroupBy(xs), GroupBy(ys))
    decreases |xs|
  {
    if xs != [] {
      var n := |xs| - 1;
      assert SameExceptCounts(xs[..n], ys[..n]);
      GroupByAlike(xs[..n], ys[..n]);
      PlaceAlike(GroupBy(xs[..n]), GroupBy(ys[..n]), xs[n], ys[n]);
    }
  }

  /**
   The summaries ignore the `Count` fields of their input: two inputs that agree on everything
   else have the same summaries.
   */
  lemma SummariesIgnoreCounts(xs: seq<RealEstateAgent>, ys: seq<RealEstateAgent>)
    requires SameExceptCounts(xs, ys)
    ensures Summaries(xs) == Summaries(ys)
  {
    GroupByAlike(xs, ys);
    GroupsAreNonEmpty(GroupBy(xs), xs);
    GroupsAreNonEmpty(GroupBy(ys), ys);
  }

  /** No broker id occurs twice in `s`. */
  ghost predicate DistinctIds(s: seq<RealEstateAgent>) {
    forall i, j :: 0 <= i < j < |s| ==> s[i].makelaarId != s[j].makelaarId
  }

  lemma {:induction false} GroupByOfDistinctIds(xs: seq<RealEstateAgent>)
    requires DistinctIds(xs)
    ensures GroupBy(xs) == seq(|xs|, i requires 0 <= i < |xs| => Group(xs[i].makelaarId, [xs[i]]))
    decreases |xs|
  {
    if xs != [] {
      var n := |xs| - 1;
      var init := xs[..n];
      var gs := GroupBy(init);
      var x := xs[n];
      assert DistinctIds(init);
      GroupByOfDistinctIds(init);
      assert !Mentions(init, x.makelaarId) by {
        forall j | 0 <= j < |init| ensures init[j].makelaarId != x.makelaarId {
          assert init[j] == xs[j];
        }
      }
      assert CoversIds(gs, init);
      assert IndexOfKey(gs, x.makelaarId) == |gs|;
      assert GroupBy(xs) == gs + [Group(x.makelaarId, [x])];
      var want := seq(|xs|, i requires 0 <= i < |xs| => Group(xs[i].makelaarId, [xs[i]]));
      forall i | 0 <= i < |xs| ensures GroupBy(xs)[i] == want[i] {
        if i < n {
          assert init[i] == xs[i];
        }
      }
    }
  }

  /**
   With pairwise distinct broker ids every listing is a group of its own: the summaries are the
   listings themselves, in input order, each with count one.
   */
  lemma SummariesOfDistinctIds(xs: seq<RealEstateAgent>)
    requires DistinctIds(xs)
    ensures Summaries(xs) == seq(|xs|, i requires 0 <= i < |xs| => xs[i].(count := 1))
  {
    GroupByOfDistinctIds(xs);
  }
}

=== FILE: ordering.dfy ===
/**
 LINQ's `OrderByDescending(a => a.Count)`. The sort is stable: entries with equal counts keep
 the order they had in the input. The model is an insertion sort that files each entry in
 front of every later entry whose count is not larger.
 */
module Ordering {
  import opened Records

  /** Counts never increase along `s`. */
  ghost predicate NonIncreasing(s: seq<RealEstateAgent>) {
    forall i, j :: 0 <= i < j < |s| ==> s[i].count >= s[j].count
  }

  /**
   Among entries of equal count, `rank` strictly increases along `s`. With `rank` the position
   an entry had in the input, this is what stability means.
   */
  ghost predicate TiesRanked(s: seq<RealEstateAgent>, rank: RealEstateAgent -> int) {
    forall i, j :: 0 <= i < j < |s| && s[i].count == s[j].count ==> rank(s[i]) < rank(s[j])
  }

  /** Files `x` into `t` in front of the first entry whose count is at most `x`'s. */
  function Insert(x: RealEstateAgent, t: seq<RealEstateAgent>): (r: seq<RealEstateAgent>)
    ensures |r| == |t| + 1
    ensures multiset(r) == multiset(t) + multiset{x}
  {
    if t == [] || x.count >= t[0].count then [x] + t
    else
      assert t == [t[0]] + t[1..];
      [t[0]] + Insert(x, t[1..])
  }

  /** `OrderByDescending(a => a.Count)`: a permutation of `s` with non-increasing counts. */
  function OrderByCountDescending(s: seq<RealEstateAgent>): (r: seq<RealEstateAgent>)
    ensures multiset(r) == multiset(s)
    ensures NonIncreasing(r)
  {
    if s == [] then []
    else
      var rest := OrderByCountDescending(s[1..]);
      InsertKeepsNonIncreasing(s[0], rest);
      assert s == [s[0]] + s[1..];
      assert multiset(s) == multiset(s[1..]) + multiset{s[0]};
      Insert(s[0], rest)
  }

  lemma {:induction false} InsertKeepsNonIncreasing(x: RealEstateAgent, t: seq<RealEstateAgent>)
    requires NonIncreasing(t)
    ensures NonIncreasing(Insert(x, t))
    decreases |t|
  {
    if t != [] && x.count < t[0].count {
      InsertKeepsNonIncreasing(x, t[1..]);
      var r := Insert(x, t);
      forall j | 0 < j < |r| ensures r[0].count >= r[j].count {
        assert r[j] in multiset(Insert(x, t[1..]));
        assert r[j] == x || r[j] in multiset(t[1..]);
      }
    }
  }

  lemma {:induction false} InsertKeepsTiesRanked(x: RealEstateAgent, t: seq<RealEstateAgent>, rank: RealEstateAgent -> int)
    requires TiesRanked(t, rank)
    requires forall y :: y in t && y.count == x.count ==> rank(x) < rank(y)
    ensures TiesRanked(Insert(x, t), rank)
    decreases |t|
  {
    if t != [] && x.count < t[0].count {
      InsertKeepsTiesRanked(x, t[1..], rank);
      var r := Insert(x, t);
      forall j | 0 < j < |r| && r[0].count == r[j].count ensures rank(r[0]) < rank(r[j]) {
        assert r[j] in multiset(Insert(x, t[1..]));
        assert r[j] != x;
        assert r[j] in t[1..];
        var k :| 0 <= k < |t[1..]| && t[1..][k] == r[j];
        assert t[k + 1] == r[j];
      }
    } else {
      var r := Insert(x, t);
      assert r[1..] == t;
    }
  }

  /**
   The sort is stable: whatever order ties had in `s` (as measured by `rank`), they have in
   the result too.
   */
  lemma {:induction false} SortKeepsTiesRanked(s: seq<RealEstateAgent>, rank: RealEstateAgent -> int)
    requires TiesRanked(s, rank)
    ensures TiesRanked(OrderByCountDescending(s), rank)
    decreases |s|
  {
    if s != [] {
      assert TiesRanked(s[1..], rank);
      SortKeepsTiesRanked(s[1..], rank);
      forall y | y in OrderByCountDescending(s[1..]) && y.count == s[0].count
        ensures rank(s[0]) < rank(y)
      {
        assert y in multiset(s[1..]);
        var k :| 0 <= k < |s[1..]| && s[1..][k] == y;
        assert s[k + 1] == y;
      }
      InsertKeepsTiesRanked(s[0], OrderByCountDescending(s[1..]), rank);
    }
  }

  /** An input that is already ordered by count comes back unchanged. */
  lemma {:induction false} SortOfOrderedIsIdentity(s: seq<RealEstateAgent>)
    requires NonIncreasing(s)
    ensures OrderByCountDescending(s) == s
    decreases |s|
  {
    if s != [] {
      SortOfOrderedIsIdentity(s[1..]);
      assert s == [s[0]] + s[1..];
    }
  }
}

=== FILE: query.dfy ===
/**
 The relative query string the extraction client requests, and the two ways it moves that
 query on to the next page: the success path replaces `&page=<n>` by `&page=<n+1>`, the failure
 path replaces the bare `&page=` by `&page=<n+1>`. The second one leaves the old page number in
 place behind the new one.
 */
module QueryString {

  predicate IsDigit(c: char) {
    '0' <= c <= '9'
  }

  function DigitChar(d: nat): (c: char)
    requires d < 10
    ensures IsDigit(c)
  {
    ('0' as int + d) as char
  }

  /** The decimal text of `n`, as string interpolation prints a non-negative `int`. */
  function Digits(n: nat): (s: string)
    ensures s != []
    ensures forall i :: 0 <= i < |s| ==> IsDigit(s[i])
  {
    if n < 10 then [DigitChar(n)] else Digits(n / 10) + [DigitChar(n % 10)]
  }

  /** The number a string of decimal digits stands for. */
  function DigitsValue(s: string): nat
    requires forall i :: 0 <= i < |s| ==> IsDigit(s[i])
  {
    if s == [] then 0
    else
      assert IsDigit(s[|s| - 1]);
      10 * DigitsValue(s[..|s| - 1]) + (s[|s| - 1] as int - '0' as int)
  }

  /** Reading the printed text back gives the number printed. */
  lemma {:induction false} DigitsRoundTrip(n: nat)
    ensures DigitsValue(Digits(n)) == n
    decreases n
  {
    if n >= 10 {
      DigitsRoundTrip(n / 10);
      var s := Digits(n);
      assert s[..|s| - 1] == Digits(n / 10);
    }
  }

  /** Different page numbers print differently. */
  lemma DigitsInjective(a: nat, b: nat)
    ensures Digits(a) == Digits(b) ==> a == b
  {
    DigitsRoundTrip(a);
    DigitsRoundTrip(b);
  }

  // ---------------------------------------------------------------------------------------
  // `String.Replace(pat, rep)`: ordinal, left to right, non-overlapping.

  function ReplaceAll(s: string, pat: string, rep: string): string
    requires pat != []
    decreases |s|
  {
    if |s| < |pat| then s
    else if s[..|pat|] == pat then rep + ReplaceAll(s[|pat|..], pat, rep)
    else [s[0]] + ReplaceAll(s[1..], pat, rep)
  }

  /** `pat` occurs in `s` at position `i`. */
  predicate OccursAt(s: string, pat: string, i: nat) {
    i + |pat| <= |s| && s[i..i + |pat|] == pat
  }

  /** A string in which `pat` does not occur comes back unchanged. */
  lemma {:induction false} ReplaceAllNoMatch(s: string, pat: string, rep: string)
    requires pat != []
    requires forall i: nat :: !OccursAt(s, pat, i)
    ensures ReplaceAll(s, pat, rep) == s
    decreases |s|
  {
    if |s| >= |pat| {
      assert !OccursAt(s, pat, 0);
      assert s[..|pat|] != pat;
      forall i: nat ensures !OccursAt(s[1..], pat, i) {
        assert !OccursAt(s, pat, i + 1);
        if i + |pat| <= |s[1..]| {
          assert s[1..][i..i + |pat|] == s[i + 1..i + 1 + |pat|];
        }
      }
      ReplaceAllNoMatch(s[1..], pat, rep);
    }
  }

  /** Where `pat` occurs at the front, it is replaced and the scan resumes behind it. */
  lemma ReplaceAllAtMatch(b: string, pat: string, rep: string)
    requires pat != []
    ensures ReplaceAll(pat + b, pat, rep) == rep + ReplaceAll(b, pat, rep)
  {
    assert (pat + b)[..|pat|] == pat;
    assert (pat + b)[|pat|..] == b;
  }

  /** Where `pat` does not occur at the front, the first character is kept. */
  lemma ReplaceAllSkip(s: string, pat: string, rep: string)
    requires pat != [] && s != []
    requires !OccursAt(s, pat, 0)
    ensures ReplaceAll(s, pat, rep) == [s[0]] + ReplaceAll(s[1..], pat, rep)
  {
    if |s| < |pat| {
      assert ReplaceAll(s[1..], pat, rep) == s[1..];
      assert s == [s[0]] + s[1..];
    }
  }

  /** A prefix free of `pat`'s first character is kept as it is. */
  lemma {:induction false} ReplaceAllFreePrefix(a: string, b: string, pat: string, rep: string)
    requires pat != [] && pat[0] !in a
    ensures ReplaceAll(a + b, pat, rep) == a + ReplaceAll(b, pat, rep)
    decreases |a|
  {
    if a != [] {
      assert (a + b)[0] == a[0];
      assert !OccursAt(a + b, pat, 0);
      ReplaceAllSkip(a + b, pat, rep);
      assert (a + b)[1..] == a[1..] + b;
      ReplaceAllFreePrefix(a[1..], b, pat, rep);
      assert a == [a[0]] + a[1..];
    } else {
      assert a + b == b;
    }
  }

  // ---------------------------------------------------------------------------------------
  // The queries of one fetch.

  /** The part of the query that stays fixed during one fetch: `type=` and the `zo=` path. */
  datatype Session = Session(offer: string, area: string)

  /** The `zo=` path segment for a search term: the term plus `/`, or nothing. */
  function SearchPath(searchTerm: string): (p: string)
    ensures searchTerm == "" <==> p == ""
    ensures searchTerm != "" ==>
      |p| == |searchTerm| + 1 && p[..|searchTerm|] == searchTerm && p[|searchTerm|] == '/'
  {
    if searchTerm != "" then searchTerm + "/" else ""
  }

  /** The purchase fetch, with an optional search term. */
  function PurchaseSession(searchTerm: string): Session {
    Session("koop", SearchPath(searchTerm))
  }

  /** The rent fetch, which takes no search term. */
  function RentSession(): Session {
    Session("huur", "")
  }

  /** Neither fixed part contains an `&`, so the query has exactly four parameters. */
  predicate WellFormed(t: Session) {
    '&' !in t.offer && '&' !in t.area
  }

  /** The query with `pageText` as the value of `page=`. */
  function QueryWithPage(t: Session, pageText: string): string {
    "?type=" + t.offer + "&zo=/amsterdam/" + t.area + "&page=" + pageText + "&pagesize=25"
  }

  /** The query for page `n`. */
  function PageQuery(t: Session, n: nat): string {
    QueryWithPage(t, Digits(n))
  }

  /** A pattern for the page parameter: `&page=` followed by some page text. */
  predicate IsPagePattern(pat: string) {
    |pat| >= 6 && pat[..6] == "&page="
  }

  /** The fixed last parameter never matches a page pattern. */
  lemma PageSizeUnchanged(pat: string, rep: string)
    requires IsPagePattern(pat)
    ensures ReplaceAll("&pagesize=25", pat, rep) == "&pagesize=25"
  {
    var tail := "&pagesize=25";
    assert pat[5] == '=';
    assert !OccursAt(tail, pat, 0) by {
      if |pat| <= |tail| {
        assert tail[..|pat|][5] == 's';
      }
    }
    ReplaceAllSkip(tail, pat, rep);
    ReplaceAllFreePrefix(tail[1..], [], pat, rep);
    assert tail[1..] + [] == tail[1..];
    assert [tail[0]] + tail[1..] == tail;
  }

  /** The `zo=` parameter never matches a page pattern. */
  lemma AreaUnchanged(area: string, rest: string, pat: string, rep: string)
    requires IsPagePattern(pat) && '&' !in area
    ensures ReplaceAll("&zo=/amsterdam/" + area + rest, pat, rep)
      == "&zo=/amsterdam/" + area + ReplaceAll(rest, pat, rep)
  {
    var zo := "&zo=/amsterdam/" + area;
    var s := zo + rest;
    assert pat[0] == '&' && pat[1] == 'p';
    assert s[1] == 'z';
    assert !OccursAt(s, pat, 0) by {
      if |pat| <= |s| {
        assert s[..|pat|][1] == 'z';
      }
    }
    ReplaceAllSkip(s, pat, rep);
    assert s[1..] == zo[1..] + rest;
    assert '&' !in zo[1..];
    ReplaceAllFreePrefix(zo[1..], rest, pat, rep);
    assert zo == [zo[0]] + zo[1..];
  }

  /**
   Replacing `&page=<u>` by `&page=<w>` in a query whose page text is `u` followed by `v`
   rewrites the page text to `w` followed by `v`, and touches nothing else.
   */
  lemma RewritePageText(t: Session, u: string, v: string, w: string)
    requires WellFormed(t) && '&' !in v
    ensures ReplaceAll(QueryWithPage(t, u + v), "&page=" + u, "&page=" + w) == QueryWithPage(t, w + v)
  {
    var pat := "&page=" + u;
    var rep := "&page=" + w;
    var head := "?type=" + t.offer;
    var zo := "&zo=/amsterdam/" + t.area;
    var tail := "&pagesize=25";
    assert IsPagePattern(pat) by {
      assert pat[..6] == "&page=";
    }
    assert QueryWithPage(t, u + v) == head + (zo + (pat + (v + tail)));
    assert QueryWithPage(t, w + v) == head + (zo + (rep + (v + tail)));
    ReplaceAllFreePrefix(head, zo + (pat + (v + tail)), pat, rep);
    AreaUnchanged(t.area, pat + (v + tail), pat, rep);
    ReplaceAllAtMatch(v + tail, pat, rep);
    ReplaceAllFreePrefix(v, tail, pat, rep);
    PageSizeUnchanged(pat, rep);
  }

  /** The success path's rewrite: `&page=<n>` becomes `&page=<n+1>`. */
  function AdvanceQuery(url: string, page: nat): string {
    ReplaceAll(url, "&page=" + Digits(page), "&page=" + Digits(page + 1))
  }

  /** Advancing the query for page `n` gives the query for page `n + 1`. */
  lemma AdvanceQueryStep(t: Session, n: nat)
    requires WellFormed(t)
    ensures AdvanceQuery(PageQuery(t, n), n) == PageQuery(t, n + 1)
  {
    RewritePageText(t, Digits(n), "", Digits(n + 1));
    assert Digits(n) + "" == Digits(n);
    assert Digits(n + 1) + "" == Digits(n + 1);
  }

  /**
   The failure path's rewrite as written: with `page` already incremented, the bare `&page=` is
   replaced by `&page=<page>`, which leaves the old number behind the new one.
   */
  function FailureQueryAsWritten(url: string, page: nat): string {
    ReplaceAll(url, "&page=", "&page=" + Digits(page))
  }

  /**
   After a failure on page `n` the next query's page text is the digits of `n + 1` followed by
   the digits of `n`, which is never the query for page `n + 1`.
   */
  lemma FailureQueryAsWrittenStep(t: Session, n: nat)
    requires WellFormed(t)
    ensures FailureQueryAsWritten(PageQuery(t, n), n + 1) == QueryWithPage(t, Digits(n + 1) + Digits(n))
    ensures FailureQueryAsWritten(PageQuery(t, n), n + 1) != PageQuery(t, n + 1)
  {
    RewritePageText(t, "", Digits(n), Digits(n + 1));
    assert "" + Digits(n) == Digits(n);
    assert "&page=" + "" == "&page=";
    assert |QueryWithPage(t, Digits(n + 1) + Digits(n))| > |PageQuery(t, n + 1)|;
  }

  /** The page numbers the concrete query lemmas below need, printed as text. */
  lemma SmallDigits()
    ensures Digits(1) == "1" && Digits(2) == "2"
  {
  }

  /**
   Page 3's number, kept apart from `SmallDigits` so that lemmas needing only pages 1 and 2
   do not carry its unfolding.
   */
  lemma DigitThree()
    ensures Digits(3) == "3"
  {
  }

  /**
   After the failure path has left the page text as the digits of `n + 1` followed by those of
   `n`, the success path rewrites only the leading number: the page text becomes the digits of
   `n + 2` followed by those of `n`.
   */
  lemma AdvanceAfterFailureAsWritten(t: Session, n: nat)
    requires WellFormed(t)
    ensures AdvanceQuery(QueryWithPage(t, Digits(n + 1) + Digits(n)), n + 1) == QueryWithPage(t, Digits(n + 2) + Digits(n))
  {
    var d := Digits(n);
    assert '&' !in d by {
      forall i | 0 <= i < |d| ensures d[i] != '&' {
        assert IsDigit(d[i]);
      }
    }
    RewritePageText(t, Digits(n + 1), d, Digits(n + 2));
  }

  lemma PlainPurchaseQuery(text: string)
    ensures QueryWithPage(PurchaseSession(""), text) == "?type=koop&zo=/amsterdam/&page=" + text + "&pagesize=25"
  {
    assert PurchaseSession("") == Session("koop", "");
  }

  /**
   A failed first page of the plain purchase fetch makes the client ask for page 21 next.
   `url` stands for the query the client started with.
   */
  lemma FailureQueryAsWrittenExample(url: string)
    requires url == PageQuery(PurchaseSession(""), 1)
    ensures FailureQueryAsWritten(url, 2) == "?type=koop&zo=/amsterdam/&page=21&pagesize=25"
  {
    FailureQueryAsWrittenStep(PurchaseSession(""), 1);
    PageTwentyOneQuery();
  }

  lemma PageTwentyOneQuery()
    ensures QueryWithPage(PurchaseSession(""), Digits(2) + Digits(1)) == "?type=koop&zo=/amsterdam/&page=21&pagesize=25"
  {
    SmallDigits();
    assert Digits(2) + Digits(1) == "21";
    PlainPurchaseQuery("21");
  }

  /** The first query of the plain purchase fetch. */
  lemma InitialPurchaseQuery()
    ensures PageQuery(PurchaseSession(""), 1) == "?type=koop&zo=/amsterdam/&page=1&pagesize=25"
  {
    SmallDigits();
  }

  /** The first query of the rent fetch. */
  lemma InitialRentQuery()
    ensures PageQuery(RentSession(), 1) == "?type=huur&zo=/amsterdam/&page=1&pagesize=25"
  {
    SmallDigits();
  }

  /** The first query of the garden fetch: the search term `tuin/` gains a second slash. */
  lemma InitialGardenQuery()
    ensures PageQuery(PurchaseSession("tuin/"), 1) == "?type=koop&zo=/amsterdam/tuin//&page=1&pagesize=25"
  {
    SmallDigits();
    assert PurchaseSession("tuin/") == Session("koop", "tuin//");
    assert "?type=" + "koop" + "&zo=/amsterdam/" == "?type=koop&zo=/amsterdam/";
    assert "?type=koop&zo=/amsterdam/" + "tuin//" == "?type=koop&zo=/amsterdam/tuin//";
    assert "?type=koop&zo=/amsterdam/tuin//" + "&page=" + "1" == "?type=koop&zo=/amsterdam/tuin//&page=1";
  }
}

=== FILE: records.dfy ===
/**
 The record types shared by the extraction client and the transformer: the page envelope
 returned by the listings feed (`RealEstateData`), its paging block (`PagingInfo`) and one
 listing's broker (`RealEstateAgent`). `RealEstateAgent` and `PagingInfo` are records of
 values, so they compare field by field, as Dafny datatypes do. `RealEstateData`'s list of
 objects compares by reference in C#, whereas a Dafny `seq` compares by value; nothing in the
 model compares two pages.
 */
module Records {

  /** The range of a .NET `int`. */
  type int32 = x: int | -0x8000_0000 <= x < 0x8000_0000

  /** A nullable reference (`string?`). */
  datatype Option<+T> = None | Some(value: T)

  /** Purchase ("koop") or rent ("huur") listing. */
  datatype OfferType = Purchase | Rent

  /**
   One broker entry. `makelaarId` and `makelaarNaam` are init-only; `offerType` is not part of
   the feed's payload and is set after a fetch; `count` is set by the transformer and is
   otherwise left at whatever the record was built with.
   */
  datatype RealEstateAgent = RealEstateAgent(
    makelaarId: int32,
    makelaarNaam: string,
    offerType: OfferType,
    count: int)

  /** The paging block of one page of the feed. */
  datatype PagingInfo = PagingInfo(
    aantalPaginas: int32,
    huidigePagina: int32,
    volgendeUrl: Option<string>,
    vorigeUrl: Option<string>)

  /** One decoded page of the feed. */
  datatype RealEstateData = RealEstateData(objects: seq<RealEstateAgent>, paging: PagingInfo)

  /** `string.IsNullOrEmpty`. */
  predicate IsNullOrEmpty(s: Option<string>) {
    s.None? || s.value == ""
  }

  /**
   The setter `agent.OfferType = k`: the only thing it changes is the offer type; the init-only
   fields and the count are untouched.
   */
  function SetOfferType(a: RealEstateAgent, k: OfferType): (b: RealEstateAgent)
    ensures b.offerType == k
    ensures b.makelaarId == a.makelaarId && b.makelaarNaam == a.makelaarNaam
    ensures b.count == a.count
    ensures a.offerType == k ==> b == a
  {
    a.(offerType := k)
  }
}

=== FILE: transformer.dfy ===
/**
 The broker ranking: group the listings by broker id, summarise each group (name and offer type
 of its first listing, number of listings), order the summaries by that number, largest first
 and ties in first-appearance order, and keep the first ten. `TransformByOfferType` does the
 same for the listings of one offer type only.
 */
module Transformer {
  import opened Records
  import opened Grouping
  import opened Ordering

  /** The number of entries a ranking keeps (`Take(10)`). */
  const TopCount: nat := 10

  function Min(a: int, b: int): int {
    if a <= b then a else b
  }

  /** `Take(n)`: the first `n` entries, or all of them when there are fewer. */
  function Take(s: seq<RealEstateAgent>, n: nat): (r: seq<RealEstateAgent>)
    ensures |r| == Min(|s|, n)
    ensures forall i :: 0 <= i < |r| ==> r[i] == s[i]
  {
    if |s| <= n then s else s[..n]
  }

  /** The ranking before `Take(10)`. */
  function Ranked(xs: seq<RealEstateAgent>): seq<RealEstateAgent> {
    OrderByCountDescending(Summaries(xs))
  }

  /** `Transform`: the ten brokers with the most listings. */
  function Transform(xs: seq<RealEstateAgent>): (r: seq<RealEstateAgent>)
    ensures |r| <= TopCount
  {
    Take(Ranked(xs), TopCount)
  }

  /** `Where(a => a.OfferType == k)`: the listings of offer type `k`, in input order. */
  function OfType(xs: seq<RealEstateAgent>, k: OfferType): (r: seq<RealEstateAgent>)
    ensures |r| <= |xs|
  {
    if xs == [] then []
    else
      assert xs == [xs[0]] + xs[1..];
      (if xs[0].offerType == k then [xs[0]] else []) + OfType(xs[1..], k)
  }

  /** `TransformByOfferType`: the ten brokers with the most listings of offer type `k`. */
  function TransformByOfferType(xs: seq<RealEstateAgent>, k: OfferType): (r: seq<RealEstateAgent>)
    ensures |r| <= TopCount
    ensures forall i :: 0 <= i < |r| ==> r[i].offerType == k
  {
    var ys := OfType(xs, k);
    OfTypeMembers(xs, k);
    TransformEntries(ys);
    Transform(ys)
  }

  // ---------------------------------------------------------------------------------------
  // Distinct broker ids survive the sort.

  lemma {:induction false} InsertKeepsDistinctIds(x: RealEstateAgent, t: seq<RealEstateAgent>)
    requires DistinctIds(t)
    requires forall y :: y in t ==> y.makelaarId != x.makelaarId
    ensures DistinctIds(Insert(x, t))
    decreases |t|
  {
    if t != [] && x.count < t[0].count {
      InsertKeepsDistinctIds(x, t[1..]);
      var r := Insert(x, t);
      forall j | 0 < j < |r| ensures r[0].makelaarId != r[j].makelaarId {
        assert r[j] in multiset(Insert(x, t[1..]));
        if r[j] != x {
          assert r[j] in t[1..];
          var k :| 0 <= k < |t[1..]| && t[1..][k] == r[j];
          assert t[k + 1] == r[j];
        }
      }
    } else {
      var r := Insert(x, t);
      assert r[1..] == t;
    }
  }

  lemma {:induction false} SortKeepsDistinctIds(s: seq<RealEstateAgent>)
    requires DistinctIds(s)
    ensures DistinctIds(OrderByCountDescending(s))
    decreases |s|
  {
    if s != [] {
      assert DistinctIds(s[1..]);
      SortKeepsDistinctIds(s[1..]);
      forall y | y in OrderByCountDescending(s[1..]) ensures y.makelaarId != s[0].makelaarId {
        assert y in multiset(s[1..]);
        var k :| 0 <= k < |s[1..]| && s[1..][k] == y;
        assert s[k + 1] == y;
      }
      InsertKeepsDistinctIds(s[0], OrderByCountDescending(s[1..]));
    }
  }

  // ---------------------------------------------------------------------------------------
  // What the ranking promises.

  /**
   Each entry of `Transform(xs)` stands for a broker id that occurs in `xs`, no id appears
   twice, its count is the number of listings with that id (so at least one, whatever the
   input's own `Count` fields say), and its name and offer type are those of that broker's
   first listing.
   */
  lemma TransformEntries(xs: seq<RealEstateAgent>)
    ensures var r := Transform(xs);
      && DistinctIds(r)
      && (forall i :: 0 <= i < |r| ==>
            && Mentions(xs, r[i].makelaarId)
            && r[i].count == |Occurrences(xs, r[i].makelaarId)| >= 1
            && r[i].makelaarNaam == xs[FirstIndex(xs, r[i].makelaarId)].makelaarNaam
            && r[i].offerType == xs[FirstIndex(xs, r[i].makelaarId)].offerType)
  {
    var s := Summaries(xs);
    var sorted := Ranked(xs);
    var r := Transform(xs);
    SummariesSpec(xs);
    SortKeepsDistinctIds(s);
    forall i | 0 <= i < |r|
      ensures Mentions(xs, r[i].makelaarId)
      ensures r[i].count == |Occurrences(xs, r[i].makelaarId)| >= 1
      ensures r[i].makelaarNaam == xs[FirstIndex(xs, r[i].makelaarId)].makelaarNaam
      ensures r[i].offerType == xs[FirstIndex(xs, r[i].makelaarId)].offerType
    {
      assert r[i] == sorted[i];
      assert sorted[i] in multiset(s);
    }
  }

  /**
   The ranking is ordered: counts never increase, and brokers with equal counts appear in the
   order in which their first listing appears in `xs`.
   */
  lemma TransformOrder(xs: seq<RealEstateAgent>)
    ensures var r := Transform(xs);
      && NonIncreasing(r)
      && (forall i, j :: 0 <= i < j < |r| && r[i].count == r[j].count ==>
            FirstIndex(xs, r[i].makelaarId) < FirstIndex(xs, r[j].makelaarId))
  {
    var s := Summaries(xs);
    var rank := (a: RealEstateAgent) => FirstIndex(xs, a.makelaarId);
    SummariesSpec(xs);
    assert TiesRanked(s, rank);
    SortKeepsTiesRanked(s, rank);
    var sorted := Ranked(xs);
    var r := Transform(xs);
    forall i, j | 0 <= i < j < |r| && r[i].count == r[j].count
      ensures FirstIndex(xs, r[i].makelaarId) < FirstIndex(xs, r[j].makelaarId)
    {
      assert r[i] == sorted[i] && r[j] == sorted[j];
      assert rank(sorted[i]) < rank(sorted[j]);
    }
  }

  /** The broker ids occurring in `xs`. */
  ghost function IdsOf(xs: seq<RealEstateAgent>): set<int32> {
    set i | 0 <= i < |xs| :: xs[i].makelaarId
  }

  lemma {:induction false} DistinctIdsCardinality(s: seq<RealEstateAgent>)
    requires DistinctIds(s)
    ensures |IdsOf(s)| == |s|
    decreases |s|
  {
    if s != [] {
      DistinctIdsCardinality(s[1..]);
      assert IdsOf(s) == IdsOf(s[1..]) + {s[0].makelaarId} by {
        forall i | 0 <= i < |s| ensures s[i].makelaarId in IdsOf(s[1..]) + {s[0].makelaarId} {
          if i > 0 { assert s[i].makelaarId == s[1..][i - 1].makelaarId; }
        }
        forall i | 0 <= i < |s[1..]| ensures s[1..][i].makelaarId in IdsOf(s) {
          assert s[1..][i] == s[i + 1];
        }
      }
      assert s[0].makelaarId !in IdsOf(s[1..]) by {
        forall i | 0 <= i < |s[1..]| ensures s[1..][i].makelaarId != s[0].makelaarId {
          assert s[1..][i] == s[i + 1];
        }
      }
    }
  }

  /**
   Before truncation the ranking has one entry per distinct broker id of `xs`, and every such id
   has an entry.
   */
  lemma RankedCoversIds(xs: seq<RealEstateAgent>)
    ensures |Ranked(xs)| == |IdsOf(xs)|
    ensures forall k :: Mentions(xs, k) ==> Mentions(Ranked(xs), k)
  {
    var s := Summaries(xs);
    var sorted := Ranked(xs);
    SummariesCountIds(xs);
    assert |sorted| == |s| by {
      assert |multiset(sorted)| == |multiset(s)|;
    }
    SummariesCoverIds(xs);
    PermutationKeepsIds(s, sorted);
  }

  lemma PermutationKeepsIds(s: seq<RealEstateAgent>, t: seq<RealEstateAgent>)
    requires multiset(s) == multiset(t)
    ensures forall q :: 0 <= q < |s| ==> Mentions(t, s[q].makelaarId)
  {
    forall q | 0 <= q < |s| ensures Mentions(t, s[q].makelaarId) {
      assert s[q] in multiset(t);
      var w :| 0 <= w < |t| && t[w] == s[q];
      assert t[w].makelaarId == s[q].makelaarId;
    }
  }

  /** There is one summary per distinct broker id. */
  lemma SummariesCountIds(xs: seq<RealEstateAgent>)
    ensures |Summaries(xs)| == |IdsOf(xs)|
  {
    var s := Summaries(xs);
    SummariesSpec(xs);
    assert DistinctIds(s);
    DistinctIdsCardinality(s);
    forall i | 0 <= i < |s| ensures s[i].makelaarId in IdsOf(xs) {
      var j := FirstIndex(xs, s[i].makelaarId);
      assert xs[j].makelaarId == s[i].makelaarId;
    }
    forall i | 0 <= i < |xs| ensures xs[i].makelaarId in IdsOf(s) {
      assert Mentions(xs, xs[i].makelaarId);
    }
    assert IdsOf(s) == IdsOf(xs);
  }

  /**
   `Take(10)` keeps the right brokers: the ranking has ten entries, or one per distinct broker
   id when there are fewer; so with at most ten distinct ids every broker appears, and a broker
   left out has no more listings than the tenth entry.
   */
  lemma TransformTopTen(xs: seq<RealEstateAgent>)
    ensures var r := Transform(xs);
      && |r| == Min(TopCount, |IdsOf(xs)|)
      && (|IdsOf(xs)| <= TopCount ==>
            forall k :: Mentions(xs, k) ==> exists i :: 0 <= i < |r| && r[i].makelaarId == k)
      && (forall k :: Mentions(xs, k) && (forall i :: 0 <= i < |r| ==> r[i].makelaarId != k) ==>
            |r| == TopCount && |Occurrences(xs, k)| <= r[TopCount - 1].count)
  {
    var sorted := Ranked(xs);
    var r := Transform(xs);
    RankedCoversIds(xs);
    TransformEntries(xs);
    SummariesSpec(xs);
    forall k | Mentions(xs, k)
      ensures |r| < TopCount ==> exists i :: 0 <= i < |r| && r[i].makelaarId == k
      ensures (forall i :: 0 <= i < |r| ==> r[i].makelaarId != k) ==>
            |r| == TopCount && |Occurrences(xs, k)| <= r[TopCount - 1].count
    {
      var p :| 0 <= p < |sorted| && sorted[p].makelaarId == k;
      if p < |r| {
        assert r[p] == sorted[p];
      } else {
        RankedEntryCount(xs, p);
        assert r[TopCount - 1] == sorted[TopCount - 1];
      }
    }
  }

  /** Each entry of the untruncated ranking counts the listings of its broker. */
  lemma RankedEntryCount(xs: seq<RealEstateAgent>, p: nat)
    requires p < |Ranked(xs)|
    ensures Ranked(xs)[p].count == |Occurrences(xs, Ranked(xs)[p].makelaarId)|
  {
    SummariesSpec(xs);
    assert Ranked(xs)[p] in multiset(Summaries(xs));
  }

  /**
   Exhaustive and exclusive grouping: before truncation the counts of the ranking add up to the
   number of listings.
   */
  lemma RankedCountsSumToLength(xs: seq<RealEstateAgent>)
    ensures SumCounts(Ranked(xs)) == |xs|
  {
    SummariesSpec(xs);
    SumCountsOfSort(Summaries(xs));
  }

  lemma {:induction false} SumCountsOfInsert(x: RealEstateAgent, t: seq<RealEstateAgent>)
    ensures SumCounts(Insert(x, t)) == x.count + SumCounts(t)
    decreases |t|
  {
    if t != [] && x.count < t[0].count {
      SumCountsOfInsert(x, t[1..]);
      assert Insert(x, t)[1..] == Insert(x, t[1..]);
    } else {
      assert Insert(x, t)[1..] == t;
    }
  }

  lemma {:induction false} SumCountsOfSort(s: seq<RealEstateAgent>)
    ensures SumCounts(OrderByCountDescending(s)) == SumCounts(s)
    decreases |s|
  {
    if s != [] {
      SumCountsOfSort(s[1..]);
      SumCountsOfInsert(s[0], OrderByCountDescending(s[1..]));
    }
  }

  /** The ranking is led by a broker with the most listings. */
  lemma TransformLeader(xs: seq<RealEstateAgent>)
    requires xs != []
    ensures var r := Transform(xs);
      && r != []
      && forall k :: Mentions(xs, k) ==> |Occurrences(xs, k)| <= r[0].count
  {
    var r := Transform(xs);
    TransformTopTen(xs);
    TransformOrder(xs);
    TransformEntries(xs);
    assert xs[0].makelaarId in IdsOf(xs);
    forall k | Mentions(xs, k) ensures |Occurrences(xs, k)| <= r[0].count {
      if i :| 0 <= i < |r| && r[i].makelaarId == k {
        assert r[0].count >= r[i].count;
      } else {
        assert r[0].count >= r[TopCount - 1].count;
      }
    }
  }

  /**
   The ranking ignores the `Count` fields of its input: two inputs that agree on everything else
   rank the same.
   */
  lemma TransformIgnoresCounts(xs: seq<RealEstateAgent>, ys: seq<RealEstateAgent>)
    requires SameExceptCounts(xs, ys)
    ensures Transform(xs) == Transform(ys)
  {
    SummariesIgnoreCounts(xs, ys);
  }

  /**
   With pairwise distinct broker ids every broker has one listing, so nothing is reordered: the
   ranking is the first ten listings, in input order, each with count one.
   */
  lemma TransformOfDistinctIds(xs: seq<RealEstateAgent>)
    requires DistinctIds(xs)
    ensures Transform(xs) == Take(seq(|xs|, i requires 0 <= i < |xs| => xs[i].(count := 1)), TopCount)
  {
    SummariesOfDistinctIds(xs);
    var s := Summaries(xs);
    assert NonIncreasing(s);
    SortOfOrderedIsIdentity(s);
  }

  // ---------------------------------------------------------------------------------------
  // The filter by offer type.

  /** The filter keeps exactly the listings of offer type `k`. */
  lemma {:induction false} OfTypeMembers(xs: seq<RealEstateAgent>, k: OfferType)
    ensures forall i :: 0 <= i < |OfType(xs, k)| ==> OfType(xs, k)[i].offerType == k && OfType(xs, k)[i] in xs
    ensures forall i :: 0 <= i < |xs| && xs[i].offerType == k ==> xs[i] in OfType(xs, k)
    decreases |xs|
  {
    if xs != [] {
      OfTypeMembers(xs[1..], k);
      assert xs == [xs[0]] + xs[1..];
      forall i | 0 < i < |xs| ensures xs[i] == xs[1..][i - 1] {
      }
    }
  }

  /** The filter distributes over concatenation, so it keeps the input order. */
  lemma {:induction false} OfTypeOfConcat(a: seq<RealEstateAgent>, b: seq<RealEstateAgent>, k: OfferType)
    ensures OfType(a + b, k) == OfType(a, k) + OfType(b, k)
    decreases |a|
  {
    if a == [] {
      assert a + b == b;
    } else {
      OfTypeOfConcat(a[1..], b, k);
      var h := if a[0].offerType == k then [a[0]] else [];
      assert (a + b)[0] == a[0];
      assert (a + b)[1..] == a[1..] + b;
      assert OfType(a + b, k) == h + OfType(a[1..] + b, k);
      assert OfType(a, k) == h + OfType(a[1..], k);
    }
  }

  /** A listing of offer type `k` passes the filter; any other listing does not. */
  lemma OfTypeOfSingle(x: RealEstateAgent, k: OfferType)
    ensures OfType([x], k) == if x.offerType == k then [x] else []
  {
    assert [x][1..] == [];
  }

  /** When every listing is of offer type `k`, the filter keeps them all. */
  lemma {:induction false} OfTypeOfUniform(xs: seq<RealEstateAgent>, k: OfferType)
    requires forall i :: 0 <= i < |xs| ==> xs[i].offerType == k
    ensures OfType(xs, k) == xs
    decreases |xs|
  {
    if xs != [] {
      OfTypeOfUniform(xs[1..], k);
    }
  }

  lemma {:induction false} OfTypeKeepsDistinctIds(xs: seq<RealEstateAgent>, k: OfferType)
    requires DistinctIds(xs)
    ensures DistinctIds(OfType(xs, k))
    decreases |xs|
  {
    if xs != [] {
      assert DistinctIds(xs[1..]);
      OfTypeKeepsDistinctIds(xs[1..], k);
      var rest := OfType(xs[1..], k);
      OfTypeMembers(xs[1..], k);
      forall y | y in rest ensures y.makelaarId != xs[0].makelaarId {
        var j :| 0 <= j < |xs[1..]| && xs[1..][j] == y;
        assert xs[j + 1] == y;
      }
    }
  }

  /** Selecting by broker id distributes over concatenation. */
  lemma {:induction false} WithIdOfConcat(a: seq<RealEstateAgent>, b: seq<RealEstateAgent>, k: int32)
    ensures WithId(a + b, k) == WithId(a, k) + WithId(b, k)
    decreases |b|
  {
    if b == [] {
      assert a + b == a;
    } else {
      var n := |b| - 1;
      var t := if b[n].makelaarId == k then [b[n]] else [];
      WithIdOfConcat(a, b[..n], k);
      assert (a + b)[..|a + b| - 1] == a + b[..n];
      assert (a + b)[|a + b| - 1] == b[n];
      assert WithId(a + b, k) == WithId(a + b[..n], k) + t;
      assert WithId(b, k) == WithId(b[..n], k) + t;
      assert WithId(a + b, k) == WithId(a, k) + (WithId(b[..n], k) + t);
    }
  }

  /** Selecting one broker and filtering by offer type can be done in either order. */
  lemma {:induction false} WithIdOfType(xs: seq<RealEstateAgent>, id: int32, k: OfferType)
    ensures WithId(OfType(xs, k), id) == OfType(WithId(xs, id), k)
    decreases |xs|
  {
    if xs != [] {
      var init := xs[..|xs| - 1];
      var last := xs[|xs| - 1];
      assert xs == init + [last];
      WithIdOfType(init, id, k);
      OfTypeOfConcat(init, [last], k);
      OfTypeOfSingle(last, k);
      var l := OfType([last], k);
      WithIdOfConcat(OfType(init, k), l, id);
      var m := if last.makelaarId == id then [last] else [];
      assert WithId(xs, id) == WithId(init, id) + m;
      OfTypeOfConcat(WithId(init, id), m, k);
      assert WithId(l, id) == OfType(m, k) by {
        if l != [] {
          assert l[..0] == [];
        }
        if m != [] {
          OfTypeOfSingle(last, k);
        }
      }
    }
  }

  /**
   Each entry of the ranking for offer type `k` counts that broker's listings of offer type `k`,
   and names a broker that has at least one.
   */
  lemma TransformByOfferTypeCounts(xs: seq<RealEstateAgent>, k: OfferType)
    ensures var r := TransformByOfferType(xs, k);
      forall i :: 0 <= i < |r| ==> r[i].count == |OfType(WithId(xs, r[i].makelaarId), k)| >= 1
  {
    var ys := OfType(xs, k);
    var r := TransformByOfferType(xs, k);
    TransformEntries(ys);
    forall i | 0 <= i < |r| ensures r[i].count == |OfType(WithId(xs, r[i].makelaarId), k)| {
      WithIdOfType(xs, r[i].makelaarId, k);
    }
  }

  /** Ranking the listings of the only offer type present is ranking all of them. */
  lemma TransformByOfferTypeOfUniform(xs: seq<RealEstateAgent>, k: OfferType)
    requires forall i :: 0 <= i < |xs| ==> xs[i].offerType == k
    ensures TransformByOfferType(xs, k) == Transform(xs)
  {
    OfTypeOfUniform(xs, k);
  }

  /** An offer type no listing has yields an empty ranking. */
  lemma TransformByOfferTypeAbsent(xs: seq<RealEstateAgent>, k: OfferType)
    requires forall i :: 0 <= i < |xs| ==> xs[i].offerType != k
    ensures TransformByOfferType(xs, k) == []
  {
    OfTypeMembers(xs, k);
    TransformTopTen([]);
  }

  /** A broker with strictly more listings than any other leads the ranking. */
  lemma TransformStrictLeader(xs: seq<RealEstateAgent>, k: int32)
    requires Mentions(xs, k)
    requires forall k' :: Mentions(xs, k') && k' != k ==> |Occurrences(xs, k')| < |Occurrences(xs, k)|
    ensures Transform(xs) != [] && Transform(xs)[0].makelaarId == k
  {
    TransformLeader(xs);
    TransformEntries(xs);
  }
}

=== FILE: transformer_examples.dfy ===
/**
 The three scenarios of the transformer's unit tests, proved for the model: a few brokers with
 several listings each, listings split over the two offer types, and more than ten brokers.
 */
module TransformerExamples {
  import opened Records
  import opened Grouping
  import opened Transformer
  import opened QueryString

  function AgentName(n: nat): string {
    "Agent " + Digits(n)
  }

  /** Ten purchase listings over three brokers: ids 0, 1, 2, 0, 1, 2, ... */
  function ThreeBrokers(): seq<RealEstateAgent> {
    seq(10, i requires 0 <= i < 10 => RealEstateAgent(i % 3, AgentName(i % 3), Purchase, 0))
  }

  /** Ten brokers with one listing each; even ids sell, odd ids let. */
  function AlternatingTypes(): seq<RealEstateAgent> {
    seq(10, i requires 0 <= i < 10 => RealEstateAgent(i, AgentName(i), if i % 2 == 0 then Purchase else Rent, 0))
  }

  /** Twenty brokers with one purchase listing each. */
  function TwentyBrokers(): seq<RealEstateAgent> {
    seq(20, i requires 0 <= i < 20 => RealEstateAgent(i, AgentName(i), Purchase, 0))
  }

  lemma ThreeBrokersIds(xs: seq<RealEstateAgent>)
    requires xs == ThreeBrokers()
    ensures IdsOf(xs) == {0, 1, 2}
    ensures Occurrences(xs, 0) == {0, 3, 6, 9}
    ensures Occurrences(xs, 1) == {1, 4, 7}
    ensures Occurrences(xs, 2) == {2, 5, 8}
  {
    forall i | 0 <= i < 10 ensures xs[i].makelaarId == i % 3 {
    }
    assert xs[0].makelaarId == 0 && xs[1].makelaarId == 1 && xs[2].makelaarId == 2;
    forall i: nat | i < 10
      ensures xs[i].makelaarId == 0 <==> i in {0, 3, 6, 9}
      ensures xs[i].makelaarId == 1 <==> i in {1, 4, 7}
      ensures xs[i].makelaarId == 2 <==> i in {2, 5, 8}
    {
      assert i == 0 || i == 1 || i == 2 || i == 3 || i == 4 || i == 5 || i == 6 || i == 7 || i == 8 || i == 9;
    }
  }

  /**
   `ShouldReturnTopRealEstateAgents`: three entries, led by broker 0 (four listings against
   three), all of them purchase entries, and the purchase ranking is the same.
   */
  lemma ShouldReturnTopRealEstateAgents(xs: seq<RealEstateAgent>)
    requires xs == ThreeBrokers()
    ensures |Transform(xs)| == 3
    ensures Transform(xs)[0].makelaarId == 0
    ensures forall i :: 0 <= i < |Transform(xs)| ==> Transform(xs)[i].offerType == Purchase
    ensures TransformByOfferType(xs, Purchase) == Transform(xs)
  {
    ThreeBrokersRanked(xs);
    ThreeBrokersLeader(xs);
    ThreeBrokersArePurchases(xs);
    TransformByOfferTypeOfUniform(xs, Purchase);
  }

  lemma ThreeBrokersRanked(xs: seq<RealEstateAgent>)
    requires xs == ThreeBrokers()
    ensures |Transform(xs)| == 3
  {
    ThreeBrokersIds(xs);
    TransformTopTen(xs);
    assert |IdsOf(xs)| == 3;
  }

  lemma ThreeBrokersLeader(xs: seq<RealEstateAgent>)
    requires xs == ThreeBrokers()
    ensures Transform(xs) != [] && Transform(xs)[0].makelaarId == 0
  {
    ThreeBrokersIds(xs);
    assert |Occurrences(xs, 0)| == 4;
    assert |Occurrences(xs, 1)| == 3;
    assert |Occurrences(xs, 2)| == 3;
    assert Mentions(xs, 0) by {
      assert xs[0].makelaarId == 0;
    }
    forall k | Mentions(xs, k) && k != 0 ensures |Occurrences(xs, k)| < |Occurrences(xs, 0)| {
      var j :| 0 <= j < |xs| && xs[j].makelaarId == k;
      assert k in IdsOf(xs);
    }
    TransformStrictLeader(xs, 0);
  }

  lemma ThreeBrokersArePurchases(xs: seq<RealEstateAgent>)
    requires xs == ThreeBrokers()
    ensures forall i :: 0 <= i < |xs| ==> xs[i].offerType == Purchase
    ensures forall i :: 0 <= i < |Transform(xs)| ==> Transform(xs)[i].offerType == Purchase
  {
    TransformEntries(xs);
  }

  lemma AlternatingTypesFiltered(xs: seq<RealEstateAgent>)
    requires xs == AlternatingTypes()
    ensures |OfType(xs, Purchase)| == 5 && OfType(xs, Purchase)[0].makelaarId == 0
    ensures |OfType(xs, Rent)| == 5 && OfType(xs, Rent)[0].makelaarId == 1
  {
    assert xs == [xs[0], xs[1]] + ([xs[2], xs[3]] + ([xs[4], xs[5]] + ([xs[6], xs[7]] + [xs[8], xs[9]])));
    forall a: RealEstateAgent, b: RealEstateAgent, k: OfferType | a.offerType == Purchase && b.offerType == Rent
      ensures OfType([a, b], k) == if k == Purchase then [a] else [b]
    {
      OfTypeOfConcat([a], [b], k);
      assert [a, b] == [a] + [b];
      OfTypeOfSingle(a, k);
      OfTypeOfSingle(b, k);
    }
    forall k: OfferType
      ensures OfType(xs, k) ==
        OfType([xs[0], xs[1]], k) + (OfType([xs[2], xs[3]], k) + (OfType([xs[4], xs[5]], k) + (OfType([xs[6], xs[7]], k) + OfType([xs[8], xs[9]], k))))
    {
      OfTypeOfConcat([xs[6], xs[7]], [xs[8], xs[9]], k);
      OfTypeOfConcat([xs[4], xs[5]], [xs[6], xs[7]] + [xs[8], xs[9]], k);
      OfTypeOfConcat([xs[2], xs[3]], [xs[4], xs[5]] + ([xs[6], xs[7]] + [xs[8], xs[9]]), k);
      OfTypeOfConcat([xs[0], xs[1]], [xs[2], xs[3]] + ([xs[4], xs[5]] + ([xs[6], xs[7]] + [xs[8], xs[9]])), k);
    }
  }

  /**
   `ShouldReturnTopRealEstateAgentsByOfferType`: five entries per offer type; every broker has
   one listing, so the tie keeps input order and the purchase ranking starts at broker 0, the
   rent ranking at broker 1; every entry has the requested offer type.
   */
  lemma ShouldReturnTopRealEstateAgentsByOfferType(xs: seq<RealEstateAgent>)
    requires xs == AlternatingTypes()
    ensures |TransformByOfferType(xs, Purchase)| == 5
    ensures TransformByOfferType(xs, Purchase)[0].makelaarId == 0
    ensures |TransformByOfferType(xs, Rent)| == 5
    ensures TransformByOfferType(xs, Rent)[0].makelaarId == 1
  {
    assert DistinctIds(xs);
    AlternatingTypesFiltered(xs);
    OfTypeKeepsDistinctIds(xs, Purchase);
    OfTypeKeepsDistinctIds(xs, Rent);
    TransformOfDistinctIds(OfType(xs, Purchase));
    TransformOfDistinctIds(OfType(xs, Rent));
  }

  /** `ShouldOnlyReturn10Items`: twenty brokers, ten entries, for both rankings. */
  lemma ShouldOnlyReturn10Items(xs: seq<RealEstateAgent>)
    requires xs == TwentyBrokers()
    ensures |Transform(xs)| == 10
    ensures |TransformByOfferType(xs, Purchase)| == 10
  {
    assert DistinctIds(xs);
    TransformOfDistinctIds(xs);
    TransformByOfferTypeOfUniform(xs, Purchase);
  }
}
